=== FILE: README.md ===
# EyeCursor: a Dafny model of the cursor core

EyeCursor moves the mouse pointer with head pose and clicks with eye winks.
This project models the parts of it that decide what happens to the pointer:

- the screen bounds and the clamping of targets into them;
- the animated `move_to`, as the sequence of positions it sets;
- `parse_coords`, which reads typed coordinates;
- the tracking loop of `run_tracking_loop`, as a step function over the
  click cooldowns and the stop flag, driven by one "tick" of tracker output
  per iteration;
- the Linux backend's readers of `xdotool` and `xrandr` output;
- the platform lookup of the cursor factory and its defaults;
- the settings dialog's `save_config`.

Python's conversions (`int()`, `float()`, `round()`, `str()` and the
string methods the code uses) are modelled in `numbers.dfy` and `text.dfy`.
Floats are exact reals plus NaN and the infinities.

| file | module | models |
|---|---|---|
| results.dfy | Results | Python exceptions as `Result`; `Option` |
| text.dfy | Text | `strip`, `split`, `split('\n')`, `splitlines`, `join`, `replace`, `lower`, `in` |
| numbers.dfy | Numbers | `int(text)`, `float(text)`, `int(x)`, `round(x)`, `str(n)` |
| geometry.dfy | Geometry | helpers/cursor.py `get_virtual_bounds`, `clamp_target` |
| motion.dfy | Motion | helpers/cursor.py `move_to` |
| coords.dfy | Coords | helpers/cursor.py `parse_coords` |
| tracking.dfy | TrackingLoop | main.py `run_tracking_loop` |
| linux.dfy | LinuxOutput | cursor/linux.py `get_pos`, `get_virtual_bounds` |
| factory.dfy | Factory | cursor/factory.py, cursor/config.py, the platform gate of main.py |
| settings.dfy | Settings | ui/settings.py `save_config` |

`move_to` takes the number of frames, `int(FRAME_RATE * duration)`, as a
parameter, because `hypot` has no exact real value in general.
`Motion.StepCount` states how that number comes about from a distance.
The code truncates the frame count with `int(...)`; only the positions of
the frames are rounded. The model follows the code (`Motion.StepCountTruncates`).

## Model

| member | source | states |
|---|---|---|
| Geometry.BoundsFromMetrics | helpers/cursor.py:30-35 | the bounds start at the metric origin and span exactly `w` by `h` pixels; they hold a pixel exactly when both sizes are positive |
| Geometry.ClampAxis | helpers/cursor.py:39-40 | the clamped coordinate lies between the limits; a coordinate already inside is unchanged; with crossed limits the lower limit wins, as `max(lo, min(v, hi))` does |
| Geometry.ClampPoint | helpers/cursor.py:37-41 | a clamped target lies inside non-empty bounds; a target already inside is returned unchanged |
| Geometry.ClampNearest | helpers/cursor.py:39-40 | no in-range coordinate is closer to the requested one than the clamped coordinate |
| Geometry.ClampIdempotent | helpers/cursor.py:37-41 | clamping a clamped target changes nothing |
| Geometry.ClampAxesIndependent | helpers/cursor.py:39-40 | each axis is clamped without looking at the other |
| Motion.NearIsEqual | helpers/cursor.py:49-53 | for integer positions, `hypot(dx, dy) < 1` holds exactly when the cursor is already on the target |
| Motion.StepCount | helpers/cursor.py:55-56 | an animation always has at least one frame |
| Motion.StepCountTruncates | helpers/cursor.py:55-56 | at 1000 px/s and 120 frames/s, a 1000-pixel move takes 120 frames, a 1005-pixel move takes 120 (120.6 truncated) and a 5-pixel move takes 1 |
| Motion.MoveTrace | helpers/cursor.py:43-72 | the last position set is the clamped, truncated target |
| Motion.MoveTo | helpers/cursor.py:43-72 | the loop sets exactly the positions of the trace: one per frame, then the target |
| Motion.TweenBetween | helpers/cursor.py:59-62 | every rounded frame coordinate lies between the start and the target |
| Motion.TweenEnd | helpers/cursor.py:59-62 | the frame `i = steps` lands exactly on the target |
| Motion.TweenMonotone | helpers/cursor.py:59-62 | frame coordinates never move back: they advance monotonically towards the target |
| Motion.MoveTraceShape | helpers/cursor.py:49-72 | a cursor already on the target gets a single call; otherwise there are `max(1, frames)` frame calls plus the final call, and the last frame already equals the target |
| Motion.MoveTraceInBox | helpers/cursor.py:58-72 | every position set lies in the box spanned by the start and the clamped target |
| Motion.MoveTraceInBounds | helpers/cursor.py:45-72 | when the cursor starts on screen, the animation never leaves the screen |
| Motion.MoveTraceSteady | helpers/cursor.py:58-72 | along the trace, each axis moves monotonically from the start towards the target |
| Coords.QuitIff | helpers/cursor.py:75-77 | the result is "quit" exactly when the stripped input is `q` or `Q` |
| Coords.QuitPadded | helpers/cursor.py:75-77 | `q` or `Q` with any surrounding whitespace quits |
| Coords.PaddedPair | helpers/cursor.py:75-79 | whitespace around the input is ignored, and only the two tokens and their separator matter |
| Coords.PairWords | helpers/cursor.py:78-79 | commas and blanks both separate, so two tokens give exactly two parts |
| Coords.TwoTokens | helpers/cursor.py:74-84 | for two tokens, the result is the first token's error, else the second's, else the target made of both truncated values |
| Coords.PairRoundTrip | helpers/cursor.py:74-84 | any two integers written with any separator of blanks and commas read back as that target |
| Coords.PaddedRoundTrip | helpers/cursor.py:74-84 | the same with whitespace around the pair, as in `" 800 , 400 "` |
| Coords.SeparatorExamples | helpers/cursor.py:78-84 | `"800 400"` and `"800,400"` both give (800, 400) |
| Coords.TruncationExample | helpers/cursor.py:82-83 | `"800.9 -3.9"` gives (800, -3): `int(float(..))` cuts toward zero |
| Coords.OneNumber | helpers/cursor.py:80-81 | a single number is a ValueError |
| Coords.BlankInput | helpers/cursor.py:80-81 | blank input, which has no tokens, is a ValueError |
| Coords.SingleToken | helpers/cursor.py:75-81 | any single token other than `q`/`Q`, numeric or not, with any whitespace around it, is a ValueError |
| Coords.ThreeWords | helpers/cursor.py:78-81 | three tokens, with any blanks or commas between them, are a ValueError |
| TrackingLoop.Target | main.py:65-68 | a head target lands on the screen, and is exactly `raw + min` when `raw` is within the screen size |
| TrackingLoop.KeyCode | main.py:107 | `waitKey(1) & 0xFF` is a byte |
| TrackingLoop.GestureCases | main.py:82-86 | a closed left eye with an open right eye is a right click; the mirror case is a left click; otherwise there is no gesture |
| TrackingLoop.HandleFaceSpec | main.py:81-89 | a face clicks exactly when it gestures and more than 0.6 s have passed since that button's last click; at most one click per face; the cooldown is updated to the click time |
| TrackingLoop.CooldownDrops | main.py:82-89 | a gesture exactly 0.6 s (or less) after the last click is dropped and changes nothing |
| TrackingLoop.CooldownsIndependent | main.py:82-89 | a right click does not delay a left click |
| TrackingLoop.CooldownsIndependentMirror | main.py:82-89 | a left click does not delay a right click |
| TrackingLoop.HandleFacesSpec | main.py:76-89 | all faces of a frame are processed; they produce only clicks, spaced as above |
| TrackingLoop.StepControl | main.py:57-114 | a queued "QUIT" stops the loop with no other effect; quit keys (Esc, `q`) stop it and post "QUIT" last; `c` calibrates only when angles are present |
| TrackingLoop.StepTargets | main.py:65-69 | every `step_towards` target is on screen, and the move comes before any click of the iteration |
| TrackingLoop.StepTracks | main.py:57-114 | one iteration keeps the cooldown state in step with the clicks it emits |
| TrackingLoop.NoKeyIsIgnored | main.py:107-111 | "no key" (-1) reads as 255: it neither quits nor calibrates |
| TrackingLoop.HighBitsIgnored | main.py:107-108 | only the low byte of the key code decides quitting |
| TrackingLoop.RunSplit | main.py:57-114 | running ticks in two parts is the same as running them at once |
| TrackingLoop.RunStopped | main.py:57-110 | once stopped, the loop does nothing more |
| TrackingLoop.RunTracks | main.py:57-114 | over any run, each button's clicks are spaced by more than the cooldown, and the state records the last one |
| TrackingLoop.ClicksSpaced | main.py:50-89 | from the initial state, two clicks of one button are always more than 0.6 s apart |
| TrackingLoop.RunLoop | main.py:57-114 | the `while True` loop computes the run; it stops early only when stopped; clicks of both buttons are spaced |
| LinuxOutput.ReadLineSpec | cursor/linux.py:10-12 | a line without `=` is ignored; a line with one `=` and an integer value sets that key, overwriting any earlier value; any other line with `=` is a ValueError |
| LinuxOutput.ReadLinesOk | cursor/linux.py:9-12 | reading succeeds exactly when every line is well-formed; failure is ValueError |
| LinuxOutput.ReadLinesValues | cursor/linux.py:9-12 | each key ends with its last value in the output |
| LinuxOutput.GetPosSpec | cursor/linux.py:6-13 | a malformed line is a ValueError, a missing X or Y is a KeyError, and otherwise the result is the last X and Y |
| LinuxOutput.GetPosRoundTrip | cursor/linux.py:6-13 | output `X=a` / `Y=b` reads back as (a, b) |
| LinuxOutput.TwoAssignments | cursor/linux.py:9-12 | two assignments to different keys both keep their values |
| LinuxOutput.GeometryToken | cursor/linux.py:22-24 | the token picked is the first of the line's words that holds both `+` and `x`; there is none exactly when no word holds both |
| LinuxOutput.ParseResolution | cursor/linux.py:25-27 | a token gives bounds exactly when its part before the first `+` splits at `x` into two integers W and H, and then the bounds are (0, 0, W-1, H-1); otherwise it is a ValueError |
| LinuxOutput.MalformedFirstMatch | cursor/linux.py:20-27 | a malformed size on the first matching line raises ValueError, and no later line is tried |
| LinuxOutput.MatchedLineSplits | cursor/linux.py:21 | every line the search stops at contains " connected " |
| LinuxOutput.ConnectedLine | cursor/linux.py:21-24 | a line naming an output as " connected " and carrying a geometry token ends the search |
| LinuxOutput.XrandrOfLines | cursor/linux.py:19-20 | the output is searched line by line |
| LinuxOutput.ScanFirstMatch | cursor/linux.py:20-27 | the first matching line decides the result, even when its size is malformed: no later line is tried |
| LinuxOutput.ScanSkip | cursor/linux.py:21-24 | a line that is not connected, or has no geometry token, is skipped |
| LinuxOutput.ScanNoMatch | cursor/linux.py:20-28 | the result is RuntimeError exactly when no line matches |
| LinuxOutput.ResolutionRoundTrip | cursor/linux.py:25-27 | a token `WxH+X+Y` gives the bounds (0, 0, W-1, H-1) and ignores the offsets |
| Factory.LoadImpl | cursor/factory.py:13-19 | the lookup fails only with RuntimeError |
| Factory.LoadImplFirst | cursor/factory.py:15-18 | the first entry in table order whose prefix starts the platform name wins |
| Factory.LoadImplNone | cursor/factory.py:13-19 | the lookup fails exactly when no prefix matches |
| Factory.PlatformCases | cursor/factory.py:7-19 | `win…` gives WindowsCursor, `darwin…` gives MacOSCursor, and `linux…` is a RuntimeError because its entry is commented out |
| Factory.CreateCursor | cursor/factory.py:21-24 | the cursor is an instance of the class the lookup found, with the speed and frame rate passed in, unchanged; it is created exactly when the lookup succeeds, and fails otherwise with the lookup's RuntimeError |
| Factory.CreateDefaultCursor | cursor/config.py:2-3 | without arguments, the cursor runs at 1000.0 px/s and 120 frames/s |
| Factory.StartWith | main.py:121-126 | `main()` refuses exactly the platforms whose name does not start with `linux` |
| Factory.StartupAsWritten | cursor/factory.py:10 | `main()` never gets a cursor: every platform it accepts is one with no table entry |
| Factory.StartupWithLinux | cursor/factory.py:7-11 | with the Linux entry restored, Linux starts with LinuxCursor at the defaults, and other platforms keep their backends |
| Factory.ExtendKeeps | cursor/factory.py:15-18 | entries after a matching one are never reached |
| Settings.Save | ui/settings.py:96-118 | unreadable input gives "valid numeric values", even when another value is at most zero; otherwise any value at most zero is refused; the rest updates the cursor with exactly the parsed values when one is attached, and takes the simulation path when none is |
| Settings.FrameRateNeedsInteger | ui/settings.py:99 | a frame rate written with a decimal point, such as "120.0", is rejected as not numeric |
| Settings.StrictAgreesWithoutNaN | ui/settings.py:102 | away from NaN, the corrected test and the written one decide the same way |
| Settings.NaNText | ui/settings.py:98 | `float("nan")` reads as NaN |
| Settings.NaNSpeedAccepted | ui/settings.py:102-111 | as written, a NaN move speed passes the check and reaches the cursor |
| Settings.NaNSpeedRefused | ui/settings.py:102-104 | the corrected test refuses every NaN move speed |
| Numbers.ParseIntShowInt | ui/settings.py:99 | `int(str(n)) == n` for every integer |
| Numbers.ParseIntRejectsForeign | ui/settings.py:99 | `int()` rejects any text holding a character other than whitespace, digits and signs |
| Numbers.IntOfFloat | helpers/cursor.py:82-83 | `int(x)` truncates toward zero; NaN is a ValueError and the infinities are errors |
| Numbers.TruncDecimal | helpers/cursor.py:82-83 | `int(float("n.ddd"))` is `n` for every integer `n`, negative ones included |
| Numbers.ParseFloatShowInt | helpers/cursor.py:82-83 | `float(str(n))` is exactly `n` |
| Numbers.RoundHalfEven | helpers/cursor.py:61-62 | `round()` returns a nearest integer, and breaks ties to even |
| Numbers.RoundMonotone | helpers/cursor.py:61-62 | `round()` never reverses order |
| Numbers.RoundOfInteger | helpers/cursor.py:61-62 | `round()` leaves whole numbers unchanged |
| Numbers.ShowNatRoundTrip | cursor/linux.py:12 | the decimal digits of a number read back as that number |
| Text.JoinSplit | cursor/linux.py:9 | joining the pieces of `split(sep)` gives back the text |
| Text.SplitJoin | cursor/linux.py:9-26 | splitting pieces that do not contain the separator, after joining them, gives back the pieces |
| Text.SplitLinesJoin | cursor/linux.py:20 | `splitlines()` gives back lines joined with newlines |
| Text.StripPadded | helpers/cursor.py:75 | `strip()` removes exactly the surrounding whitespace |
| Text.WordsPair | helpers/cursor.py:79 | `split()` of two words with blanks between them gives the two words |

## Left out

- Subprocess calls, sleeping and timing are not modelled: `xdotool`, `xrandr`, `time.sleep`, `perf_counter` and `time.time`. Their outputs are parameters: the output text, and `now` per face.
- Threads and the stop queue are not modelled. The queue is read as at most one message per tick.
- OpenCV and MediaPipe are not modelled: face detection, `detect_wink`'s eye-aspect ratio, `putText`, `imshow`, and `imshow` with a `None` frame. The ratios per face are parameters.
- The head-pose tracker's internals are not modelled: `next_position` and `calibrate_center`. Their outputs are parameters and `CalibrateCenter` events.
- The clean-up at main.py:116-118 (`tracker.stop()` and what follows) is not modelled.
- Motion.MoveTrace: takes the frame count as a parameter rather than computing `hypot`, because the square root has no exact real model. The `hypot < 1` test is modelled on the squared distance, which is equivalent.
- Motion.MoveTrace: `cx + dx * t` is computed on exact reals. Float error before `round()` is not modelled.
- Numbers.ParseFloat: does not accept exponents such as `"8e2"`.
- Numbers.ParseFloat: does not accept underscores such as `"1_000"`.
- Numbers.ParseFloat: accepts only ASCII digits, so `"٣"` is an error here.
- Numbers.ParseFloat: reads decimals exactly. IEEE rounding is not modelled: `int(float("0.99999999999999999"))` is 1 in Python but 0 here.
- Numbers.ParseFloat: never overflows. A very long number is `inf` in Python, and `int()` of it is an OverflowError; here it stays finite.
- Numbers.ParseInt: accepts only ASCII digits and no underscores.
- Factory.LoadImpl: names a backend by module and class. `importlib.import_module` and the backend classes are not modelled.
- The cursor.constants import at ui/settings.py:6-10 is not modelled, because cursor.constants is not part of this model. The window layout and `update_config` are not modelled either; an update is the `Updated` outcome.
- `messagebox` dialogs are not modelled; which one appears is the outcome.

## Findings

| source | as written | input that shows it | evidently intended | confidence | as-written member | corrected member |
|---|---|---|---|---|---|---|
| ui/settings.py:102 | `move_speed <= 0` is the only check on the move speed, and NaN makes it false | move speed `"nan"`, frame rate `"120"`, scroll `"300"` | refuse any value that is not greater than zero, NaN included | not executed | Settings.NaNSpeedAccepted | Settings.NaNSpeedRefused |
| cursor/factory.py:10 | the `"linux"` entry is commented out, while main.py:122 accepts only Linux | `sys.platform == "linux"`: `create_cursor()` raises RuntimeError | Linux gets LinuxCursor | not executed | Factory.StartupAsWritten | Factory.StartupWithLinux |

=== FILE: coords.dfy ===
/** `parse_coords` from helpers/cursor.py: the console prompt's reader for a
    target position ("800 400", "800,400") or the quit command ("q"). */
module Coords {
  import opened Text
  import opened Numbers
  import opened Results

  /** What the prompt asks for: stop, or move to a whole-pixel target. */
  datatype Command = Quit | MoveTarget(x: int, y: int)

  /** `parse_coords(raw)`: strip; "q" in either case quits; otherwise commas
      count as blanks, exactly two tokens must remain, and each is read with
      `int(float(token))`. */
  function ParseCoords(raw: string): Result<Command> {
    var s := Strip(raw);
    if LowerAscii(s) == "q" then Ok(Quit) else ParsePair(s)
  }

  /** The part of `parse_coords` after the quit test, on the stripped text. */
  function ParsePair(s: string): (r: Result<Command>)
    ensures r.Ok? ==> r.value.MoveTarget?
  {
    var parts := Words(ReplaceChar(s, ',', ' '));
    if |parts| != 2 then
      Err(ValueError)
    else
      var x :- IntOfFloatText(parts[0]);
      var y :- IntOfFloatText(parts[1]);
      Ok(MoveTarget(x, y))
  }

  /** The characters that may separate the two numbers. */
  predicate IsSeparator(c: char) {
    IsSpace(c) || c == ','
  }

  /** A non-empty run of blanks and commas. */
  predicate IsGap(gap: string) {
    |gap| > 0 && forall k :: 0 <= k < |gap| ==> IsSeparator(gap[k])
  }

  /** A token `split()` keeps whole: no blank and no comma inside. */
  predicate IsToken(w: string) {
    IsWord(w) && ',' !in w
  }

  // ---------------------------------------------------------------------------
  // Lemmas

  lemma ReplaceCommaFree(w: string)
    requires ',' !in w
    ensures ReplaceChar(w, ',', ' ') == w
  {
  }

  lemma ReplaceConcat(a: string, b: string)
    ensures ReplaceChar(a + b, ',', ' ') == ReplaceChar(a, ',', ' ') + ReplaceChar(b, ',', ' ')
  {
  }

  lemma ReplaceGap(gap: string)
    requires IsGap(gap)
    ensures var r := ReplaceChar(gap, ',', ' '); |r| > 0 && AllSpace(r)
  {
  }

  /** The quit command is exactly "q" or "Q" once surrounding whitespace is removed. */
  lemma QuitIff(raw: string)
    ensures ParseCoords(raw) == Ok(Quit) <==> Strip(raw) == "q" || Strip(raw) == "Q"
  {
    LowerIsQ(Strip(raw));
  }

  lemma LowerIsQ(s: string)
    ensures LowerAscii(s) == "q" <==> s == "q" || s == "Q"
  {
    if LowerAscii(s) == "q" {
      assert |s| == 1;
      assert s == [s[0]];
    }
  }

  /** "q" or "Q" with any surrounding whitespace quits. */
  lemma QuitPadded(pre: string, c: char, post: string)
    requires AllSpace(pre) && AllSpace(post)
    requires c == 'q' || c == 'Q'
    ensures ParseCoords(pre + [c] + post) == Ok(Quit)
  {
    StripPadded(pre, [c], post);
    QuitIff(pre + [c] + post);
  }

  /** Whitespace around the pair is dropped before anything else looks at it. */
  lemma PaddedPair(pre: string, a: string, gap: string, b: string, post: string)
    requires AllSpace(pre) && AllSpace(post)
    requires IsToken(a) && IsToken(b) && IsGap(gap)
    ensures ParseCoords(pre + a + gap + b + post) == ParsePair(a + gap + b)
  {
    var core := a + gap + b;
    assert core[0] == a[0];
    assert core[|core| - 1] == b[|b| - 1];
    assert pre + a + gap + b + post == pre + core + post;
    StripPadded(pre, core, post);
    assert |LowerAscii(core)| >= 3;
  }

  /** Blanks and commas between two tokens separate exactly those two. */
  lemma PairWords(a: string, gap: string, b: string)
    requires IsToken(a) && IsToken(b) && IsGap(gap)
    ensures Words(ReplaceChar(a + gap + b, ',', ' ')) == [a, b]
  {
    ReplaceConcat(a + gap, b);
    ReplaceConcat(a, gap);
    ReplaceCommaFree(a);
    ReplaceCommaFree(b);
    ReplaceGap(gap);
    WordsPair(a, ReplaceChar(gap, ',', ' '), b);
  }

  /** With exactly two tokens, the tokens are read in order and the first
      failure is the one reported. */
  lemma PairOfWords(s: string, a: string, b: string)
    requires Words(ReplaceChar(s, ',', ' ')) == [a, b]
    ensures IntOfFloatText(a).Err? ==> ParsePair(s) == Err(IntOfFloatText(a).error)
    ensures IntOfFloatText(a).Ok? && IntOfFloatText(b).Err? ==> ParsePair(s) == Err(IntOfFloatText(b).error)
    ensures IntOfFloatText(a).Ok? && IntOfFloatText(b).Ok? ==>
      ParsePair(s) == Ok(MoveTarget(IntOfFloatText(a).value, IntOfFloatText(b).value))
  {
  }

  /** Two tokens separated by blanks and commas, with any surrounding
      whitespace, are read as `int(float(a))` and `int(float(b))`; the first
      token's failure is reported before the second's. */
  lemma TwoTokens(pre: string, a: string, gap: string, b: string, post: string)
    requires AllSpace(pre) && AllSpace(post)
    requires IsToken(a) && IsToken(b) && IsGap(gap)
    ensures var r := ParseCoords(pre + a + gap + b + post);
      && (IntOfFloatText(a).Err? ==> r == Err(IntOfFloatText(a).error))
      && (IntOfFloatText(a).Ok? && IntOfFloatText(b).Err? ==> r == Err(IntOfFloatText(b).error))
      && (IntOfFloatText(a).Ok? && IntOfFloatText(b).Ok? ==>
            r == Ok(MoveTarget(IntOfFloatText(a).value, IntOfFloatText(b).value)))
  {
    PaddedPair(pre, a, gap, b, post);
    PairWords(a, gap, b);
    PairOfWords(a + gap + b, a, b);
  }

  /** Two tokens whose values are known give the target they name. */
  lemma TokensGiveTarget(pre: string, a: string, gap: string, b: string, post: string, x: int, y: int)
    requires AllSpace(pre) && AllSpace(post)
    requires IsToken(a) && IsToken(b) && IsGap(gap)
    requires IntOfFloatText(a) == Ok(x) && IntOfFloatText(b) == Ok(y)
    ensures ParseCoords(pre + a + gap + b + post) == Ok(MoveTarget(x, y))
  {
    PaddedPair(pre, a, gap, b, post);
    PairWords(a, gap, b);
    PairOfWords(a + gap + b, a, b);
  }

  /** `str(n)` is a single token made of digits and at most a leading minus. */
  lemma ShowIntToken(n: int)
    ensures IsToken(ShowInt(n))
  {
    ShowIntChars(n);
  }

  /** `int(float(str(n))) == n` */
  lemma IntOfFloatTextShowInt(n: int)
    ensures IntOfFloatText(ShowInt(n)) == Ok(n)
  {
    ParseFloatShowInt(n);
    IntOfFloatTextWhole(ShowInt(n), n);
  }

  /** Any two integers written out with blanks or commas between them are read back. */
  lemma PairRoundTrip(x: int, gap: string, y: int)
    requires IsGap(gap)
    ensures ParseCoords(ShowInt(x) + gap + ShowInt(y)) == Ok(MoveTarget(x, y))
  {
    ShowIntToken(x);
    ShowIntToken(y);
    IntOfFloatTextShowInt(x);
    IntOfFloatTextShowInt(y);
    TokensGiveTarget("", ShowInt(x), gap, ShowInt(y), "", x, y);
    Unpadded(ShowInt(x), gap, ShowInt(y));
  }

  /** The same with any whitespace around the pair, as in " 800 , 400 ". */
  lemma PaddedRoundTrip(pre: string, x: int, gap: string, y: int, post: string)
    requires AllSpace(pre) && AllSpace(post) && IsGap(gap)
    ensures ParseCoords(pre + ShowInt(x) + gap + ShowInt(y) + post) == Ok(MoveTarget(x, y))
  {
    ShowIntToken(x);
    ShowIntToken(y);
    IntOfFloatTextShowInt(x);
    IntOfFloatTextShowInt(y);
    TokensGiveTarget(pre, ShowInt(x), gap, ShowInt(y), post, x, y);
  }

  lemma Unpadded(a: string, gap: string, b: string)
    ensures "" + a + gap + b + "" == a + gap + b
  {
  }

  lemma ShowIntExamples()
    ensures ShowInt(800) == "800" && ShowInt(400) == "400" && ShowInt(-3) == "-3"
  {
    assert ShowNat(8) == "8";
    assert ShowNat(80) == "80";
    assert ShowNat(4) == "4";
    assert ShowNat(40) == "40";
    assert ShowNat(3) == "3";
  }

  lemma TokenExamples()
    ensures IsToken("800") && IsToken("400") && IsToken("800.9") && IsToken("-3.9")
    ensures IsGap(" ") && IsGap(",") && IsGap(" , ")
  {
  }

  lemma TextExamples()
    ensures "800" + "." + "9" == "800.9" && "-3" + "." + "9" == "-3.9"
    ensures "" + "800" + " " + "400" + "" == "800 400"
    ensures "" + "800" + "," + "400" + "" == "800,400"
    ensures "" + "800.9" + " " + "-3.9" + "" == "800.9 -3.9"
  {
  }

  lemma ReadExamples()
    ensures IntOfFloatText("800") == Ok(800) && IntOfFloatText("400") == Ok(400)
    ensures IntOfFloatText("800.9") == Ok(800) && IntOfFloatText("-3.9") == Ok(-3)
  {
    ShowIntExamples();
    TextExamples();
    IntOfFloatTextShowInt(800);
    IntOfFloatTextShowInt(400);
    assert AllDigits("9");
    TruncDecimal(800, "9");
    TruncDecimal(-3, "9");
  }

  /** "800 400" and "800,400" both name the point (800, 400); with blanks
      around the comma and the pair, see `PaddedRoundTrip`. */
  lemma SeparatorExamples()
    ensures ParseCoords("800 400") == Ok(MoveTarget(800, 400))
    ensures ParseCoords("800,400") == Ok(MoveTarget(800, 400))
  {
    BlankSeparated();
    CommaSeparated();
  }

  lemma BlankSeparated()
    ensures ParseCoords("800 400") == Ok(MoveTarget(800, 400))
  {
    ReadExamples();
    TokenExamples();
    TextExamples();
    TokensGiveTarget("", "800", " ", "400", "", 800, 400);
  }

  lemma CommaSeparated()
    ensures ParseCoords("800,400") == Ok(MoveTarget(800, 400))
  {
    ReadExamples();
    TokenExamples();
    TextExamples();
    TokensGiveTarget("", "800", ",", "400", "", 800, 400);
  }

  /** Fractions are cut toward zero: "800.9 -3.9" names (800, -3). */
  lemma TruncationExample()
    ensures ParseCoords("800.9 -3.9") == Ok(MoveTarget(800, -3))
  {
    ReadExamples();
    TokenExamples();
    TextExamples();
    TokensGiveTarget("", "800.9", " ", "-3.9", "", 800, -3);
  }

  /** A lone number is not a pair. */
  lemma OneNumber(n: int)
    ensures ParseCoords(ShowInt(n)) == Err(ValueError)
  {
    var w := ShowInt(n);
    ShowIntToken(n);
    StripUnpadded(w);
    ReplaceCommaFree(w);
    WordsCons(w, "");
    assert w + "" == w;
    assert LowerAscii(w)[0] == w[0] != 'q';
  }

  /** Any single token other than the quit command, with any whitespace
      around it, is not a pair, whether it is a number or not. */
  lemma SingleToken(pre: string, a: string, post: string)
    requires AllSpace(pre) && AllSpace(post) && IsToken(a) && a != "q" && a != "Q"
    ensures ParseCoords(pre + a + post) == Err(ValueError)
  {
    StripPadded(pre, a, post);
    QuitIff(pre + a + post);
    ReplaceCommaFree(a);
    WordsCons(a, "");
    assert a + "" == a;
  }

  /** Three tokens are one too many, whatever separates them. */
  lemma ThreeWords(a: string, g1: string, b: string, g2: string, c: string)
    requires IsToken(a) && IsToken(b) && IsToken(c) && IsGap(g1) && IsGap(g2)
    ensures ParsePair(a + g1 + b + g2 + c) == Err(ValueError)
  {
    var tail := b + g2 + c;
    PairWords(b, g2, c);
    assert a + g1 + b + g2 + c == a + (g1 + tail);
    ReplaceConcat(a, g1 + tail);
    ReplaceConcat(g1, tail);
    ReplaceCommaFree(a);
    ReplaceGap(g1);
    var r1 := ReplaceChar(g1, ',', ' ');
    var rt := ReplaceChar(tail, ',', ' ');
    WordsSkipSpace(r1, rt);
    WordsCons(a, r1 + rt);
    assert Words(ReplaceChar(a + g1 + b + g2 + c, ',', ' ')) == [a, b, c];
  }

  /** Blank input holds no token at all. */
  lemma BlankInput(raw: string)
    requires AllSpace(raw)
    ensures ParseCoords(raw) == Err(ValueError)
  {
    assert Strip(raw) == "";
  }
}

=== FILE: factory.dfy ===
/** cursor/factory.py: choosing the cursor backend from `sys.platform` by
    prefix, and `create_cursor` with the shared defaults of cursor/config.py.
    Importing the chosen module is not modelled; a backend is named by its
    module and class. */
module Factory {
  import opened Text
  import opened Results

  /** DEFAULT_SPEED_PX_PER_SEC and DEFAULT_FRAME_RATE. */
  const DefaultSpeedPxPerSec: real := 1000.0
  const DefaultFrameRate: int := 120

  /** A backend class, named by the module that defines it and its class name. */
  datatype Impl = Impl(moduleName: string, className: string)

  /** A constructed cursor: its backend and the speed settings it was given. */
  datatype Cursor = Cursor(impl: Impl, speedPxPerSec: real, frameRate: int)

  /** Platform prefixes in the order the table lists them. */
  type Table = seq<(string, Impl)>

  /** `_PLATFORM_IMPLS` as written: the Linux entry is commented out. */
  const PlatformImpls: Table := [
    ("win", Impl("cursor.windows", "WindowsCursor")),
    ("darwin", Impl("cursor.macos", "MacOSCursor"))
  ]

  /** `_PLATFORM_IMPLS` with its Linux entry restored. */
  const PlatformImplsWithLinux: Table := PlatformImpls + [("linux", Impl("cursor.linux", "LinuxCursor"))]

  /** `_load_impl_for_platform`: the first entry whose prefix starts the
      platform name, or RuntimeError when none does. */
  function LoadImpl(table: Table, platform: string): (r: Result<Impl>)
    ensures r.Err? ==> r.error == RuntimeError
    decreases |table|
  {
    if |table| == 0 then
      Err(RuntimeError)
    else if StartsWith(platform, table[0].0) then
      Ok(table[0].1)
    else
      LoadImpl(table[1..], platform)
  }

  /** `create_cursor(speed, frame_rate)`: the loaded class constructed with
      both settings passed through unchanged. */
  function CreateCursor(table: Table, platform: string, speed: real, frameRate: int): (r: Result<Cursor>)
    ensures r.Ok? ==> r.value.speedPxPerSec == speed && r.value.frameRate == frameRate
    ensures r.Ok? <==> LoadImpl(table, platform).Ok?
    ensures r.Ok? ==> r.value.impl == LoadImpl(table, platform).value
    ensures r.Err? ==> r.error == RuntimeError
  {
    var impl :- LoadImpl(table, platform);
    Ok(Cursor(impl, speed, frameRate))
  }

  /** `create_cursor()` with the defaults, against the table as written. */
  function CreateDefaultCursor(platform: string): (r: Result<Cursor>)
    ensures r.Ok? ==> r.value.speedPxPerSec == 1000.0 && r.value.frameRate == 120
  {
    CreateCursor(PlatformImpls, platform, DefaultSpeedPxPerSec, DefaultFrameRate)
  }

  /** No entry of the table matches the platform. */
  predicate NoneMatch(table: Table, platform: string) {
    forall k :: 0 <= k < |table| ==> !StartsWith(platform, table[k].0)
  }

  /** Entry `k` is the first whose prefix matches. */
  predicate FirstMatch(table: Table, platform: string, k: int) {
    0 <= k < |table| && StartsWith(platform, table[k].0)
    && forall j :: 0 <= j < k ==> !StartsWith(platform, table[j].0)
  }

  /** The lookup returns the class of the first matching entry. */
  lemma {:induction false} LoadImplFirst(table: Table, platform: string, k: int)
    requires FirstMatch(table, platform, k)
    ensures LoadImpl(table, platform) == Ok(table[k].1)
    decreases k
  {
    if k > 0 {
      assert !StartsWith(platform, table[0].0);
      LoadImplFirst(table[1..], platform, k - 1);
    }
  }

  /** The lookup fails exactly when no entry matches. */
  lemma {:induction false} LoadImplNone(table: Table, platform: string)
    ensures LoadImpl(table, platform).Err? <==> NoneMatch(table, platform)
    decreases |table|
  {
    if |table| > 0 {
      LoadImplNone(table[1..], platform);
      if !StartsWith(platform, table[0].0) && NoneMatch(table[1..], platform) {
        forall k | 0 <= k < |table|
          ensures !StartsWith(platform, table[k].0)
        {
          if k > 0 {
            assert table[k] == table[1..][k - 1];
          }
        }
      }
    }
  }

  lemma PrefixOf(platform: string, prefix: string, c: char)
    requires StartsWith(platform, prefix) && |prefix| > 0 && prefix[0] == c
    ensures |platform| > 0 && platform[0] == c
  {
    assert platform[0] == platform[..|prefix|][0];
  }

  /** Windows ("win32") and macOS ("darwin") get their backends; any platform
      name starting with "linux" finds no entry and raises RuntimeError. */
  lemma PlatformCases(platform: string)
    ensures StartsWith(platform, "win") ==> LoadImpl(PlatformImpls, platform) == Ok(Impl("cursor.windows", "WindowsCursor"))
    ensures StartsWith(platform, "darwin") ==> LoadImpl(PlatformImpls, platform) == Ok(Impl("cursor.macos", "MacOSCursor"))
    ensures StartsWith(platform, "linux") ==> LoadImpl(PlatformImpls, platform) == Err(RuntimeError)
  {
    if StartsWith(platform, "darwin") {
      PrefixOf(platform, "darwin", 'd');
      assert !StartsWith(platform, "win") by {
        if StartsWith(platform, "win") {
          PrefixOf(platform, "win", 'w');
        }
      }
    }
    if StartsWith(platform, "linux") {
      PrefixOf(platform, "linux", 'l');
      assert !StartsWith(platform, "win") by {
        if StartsWith(platform, "win") {
          PrefixOf(platform, "win", 'w');
        }
      }
      assert !StartsWith(platform, "darwin") by {
        if StartsWith(platform, "darwin") {
          PrefixOf(platform, "darwin", 'd');
        }
      }
    }
  }

  /** What `main()` gets to before the tracking loop starts: it refuses any
      platform that is not Linux, then creates the cursor. */
  datatype Startup = Unsupported | Failed(error: PyError) | Started(cursor: Cursor)

  /** The start of `main()` against a given table. */
  function StartWith(table: Table, platform: string): (r: Startup)
    ensures r.Unsupported? <==> !StartsWith(platform, "linux")
  {
    if !StartsWith(platform, "linux") then
      Unsupported
    else
      match CreateCursor(table, platform, DefaultSpeedPxPerSec, DefaultFrameRate)
      case Ok(c) => Started(c)
      case Err(e) => Failed(e)
  }

  /** As written, `main()` never gets a cursor: every platform it accepts is
      one the factory has no entry for. */
  lemma StartupAsWritten(platform: string)
    ensures !StartWith(PlatformImpls, platform).Started?
    ensures StartsWith(platform, "linux") ==> StartWith(PlatformImpls, platform) == Failed(RuntimeError)
  {
    PlatformCases(platform);
  }

  /** With the Linux entry restored, the platforms `main()` accepts get the
      Linux backend at the default speed and frame rate, and the other
      platforms keep their backends. */
  lemma StartupWithLinux(platform: string)
    ensures StartsWith(platform, "linux") ==>
      StartWith(PlatformImplsWithLinux, platform) ==
        Started(Cursor(Impl("cursor.linux", "LinuxCursor"), DefaultSpeedPxPerSec, DefaultFrameRate))
    ensures LoadImpl(PlatformImpls, platform).Ok? ==>
      LoadImpl(PlatformImplsWithLinux, platform) == LoadImpl(PlatformImpls, platform)
  {
    PlatformCases(platform);
    if StartsWith(platform, "linux") {
      LoadImplNone(PlatformImpls, platform);
      assert FirstMatch(PlatformImplsWithLinux, platform, 2) by {
        assert PlatformImplsWithLinux[0] == PlatformImpls[0];
        assert PlatformImplsWithLinux[1] == PlatformImpls[1];
      }
      LoadImplFirst(PlatformImplsWithLinux, platform, 2);
    }
    if LoadImpl(PlatformImpls, platform).Ok? {
      LoadImplNone(PlatformImpls, platform);
      ExtendKeeps(PlatformImpls, [("linux", Impl("cursor.linux", "LinuxCursor"))], platform);
    }
  }

  /** Entries appended after a matching one are never reached. */
  lemma {:induction false} ExtendKeeps(table: Table, more: Table, platform: string)
    requires LoadImpl(table, platform).Ok?
    ensures LoadImpl(table + more, platform) == LoadImpl(table, platform)
    decreases |table|
  {
    assert (table + more)[0] == table[0];
    if !StartsWith(platform, table[0].0) {
      assert (table + more)[1..] == table[1..] + more;
      ExtendKeeps(table[1..], more, platform);
    }
  }
}

=== FILE: geometry.dfy ===
/** Screen geometry shared by the pointer helpers and the tracking loop:
    inclusive virtual-desktop bounds and per-axis clamping. */
module Geometry {

  /** A pointer position in virtual-desktop pixels. */
  datatype Point = Point(x: int, y: int)

  /** The inclusive pixel rectangle `(minx, miny, maxx, maxy)` of the virtual desktop. */
  datatype Bounds = Bounds(minX: int, minY: int, maxX: int, maxY: int)

  function Min(a: int, b: int): int {
    if a <= b then a else b
  }

  function Max(a: int, b: int): int {
    if a >= b then a else b
  }

  /** Number of pixel columns covered by `b`. */
  function Width(b: Bounds): int {
    b.maxX - b.minX + 1
  }

  /** Number of pixel rows covered by `b`. */
  function Height(b: Bounds): int {
    b.maxY - b.minY + 1
  }

  /** Bounds that hold at least one pixel. */
  predicate NonEmpty(b: Bounds) {
    b.minX <= b.maxX && b.minY <= b.maxY
  }

  predicate Inside(b: Bounds, p: Point) {
    b.minX <= p.x <= b.maxX && b.minY <= p.y <= b.maxY
  }

  /** `get_virtual_bounds`: the origin and size metrics of the virtual screen
      turned into inclusive limits. */
  function BoundsFromMetrics(minX: int, minY: int, w: int, h: int): (b: Bounds)
    ensures b.minX == minX && b.minY == minY
    ensures Width(b) == w && Height(b) == h
    ensures NonEmpty(b) <==> w > 0 && h > 0
  {
    Bounds(minX, minY, minX + w - 1, minY + h - 1)
  }

  /** `max(lo, min(v, hi))` */
  function ClampAxis(v: int, lo: int, hi: int): (r: int)
    ensures lo <= hi ==> lo <= r <= hi
    ensures lo <= v <= hi ==> r == v
    ensures hi < lo ==> r == lo
  {
    Max(lo, Min(v, hi))
  }

  /** `clamp_target`: each coordinate clipped to its own axis. */
  function ClampPoint(b: Bounds, p: Point): (r: Point)
    ensures NonEmpty(b) ==> Inside(b, r)
    ensures Inside(b, p) ==> r == p
  {
    Point(ClampAxis(p.x, b.minX, b.maxX), ClampAxis(p.y, b.minY, b.maxY))
  }

  function Distance(a: int, b: int): nat {
    if a <= b then b - a else a - b
  }

  /** The clamped coordinate is the point of `[lo, hi]` nearest to `v`. */
  lemma ClampNearest(v: int, lo: int, hi: int, u: int)
    requires lo <= u <= hi
    ensures Distance(ClampAxis(v, lo, hi), v) <= Distance(u, v)
  {
  }

  /** Clamping a second time changes nothing. */
  lemma ClampIdempotent(b: Bounds, p: Point)
    ensures ClampPoint(b, ClampPoint(b, p)) == ClampPoint(b, p)
  {
  }

  /** The x coordinate of the clamp depends only on the x coordinate of the input. */
  lemma ClampAxesIndependent(b: Bounds, p: Point, q: Point)
    ensures p.x == q.x ==> ClampPoint(b, p).x == ClampPoint(b, q).x
    ensures p.y == q.y ==> ClampPoint(b, p).y == ClampPoint(b, q).y
  {
  }
}

=== FILE: linux.dfy ===
/** The text parsing of the Linux backend (cursor/linux.py): the pointer
    position printed by `xdotool getmouselocation --shell` and the screen size
    printed by `xrandr`.  Running the two programs is not modelled; their
    output is the input here. */
module LinuxOutput {
  import opened Text
  import opened Numbers
  import opened Results
  import opened Geometry

  // ---------------------------------------------------------------------------
  // get_pos

  /** The `KEY=VALUE` assignments read so far. */
  type Assignments = map<string, int>

  /** One line of `get_pos`'s loop: a line with a '=' must split into exactly
      a key and an integer; a line without one is skipped. */
  function ReadLine(pos: Assignments, line: string): Result<Assignments> {
    if '=' in line then
      var pieces := SplitOn(line, '=');
      if |pieces| != 2 then
        Err(ValueError)
      else
        var value :- ParseInt(pieces[1]);
        Ok(pos[pieces[0] := value])
    else
      Ok(pos)
  }

  /** The loop of `get_pos` over `lines`, starting from `pos`. */
  function ReadLines(pos: Assignments, lines: seq<string>): Result<Assignments>
    decreases |lines|
  {
    if |lines| == 0 then
      Ok(pos)
    else
      var next :- ReadLine(pos, lines[0]);
      ReadLines(next, lines[1..])
  }

  /** The lines `get_pos` walks: `output.strip().split('\n')`. */
  function PosLines(output: string): seq<string> {
    SplitOn(Strip(output), '\n')
  }

  /** `get_pos`: the values of the X and Y keys. */
  function GetPos(output: string): Result<Point> {
    var pos :- ReadLines(map[], PosLines(output));
    if "X" in pos && "Y" in pos then Ok(Point(pos["X"], pos["Y"])) else Err(KeyError)
  }

  /** The key and value a line assigns, read declaratively: exactly one '='
      with an integer after it. */
  function Assignment(line: string): Option<(string, int)> {
    var pieces := SplitOn(line, '=');
    if |pieces| == 2 && ParseInt(pieces[1]).Ok? then Some((pieces[0], ParseInt(pieces[1]).value)) else None
  }

  /** A line `get_pos` accepts: no '=' at all, or a proper assignment. */
  predicate WellFormed(line: string) {
    '=' !in line || Assignment(line).Some?
  }

  /** Every line is well formed. */
  predicate AllWellFormed(lines: seq<string>)
    decreases |lines|
  {
    |lines| == 0 || (WellFormed(lines[0]) && AllWellFormed(lines[1..]))
  }

  /** The value given to `key` by the LAST line assigning it, if any. */
  function LastValue(lines: seq<string>, key: string): Option<int>
    decreases |lines|
  {
    if |lines| == 0 then
      None
    else
      var later := LastValue(lines[1..], key);
      if later.Some? then later
      else if Assignment(lines[0]).Some? && Assignment(lines[0]).value.0 == key then Some(Assignment(lines[0]).value.1)
      else None
  }

  function Lookup(m: Assignments, key: string): Option<int> {
    if key in m then Some(m[key]) else None
  }

  lemma ReadLineSpec(pos: Assignments, line: string)
    ensures ReadLine(pos, line).Ok? <==> WellFormed(line)
    ensures ReadLine(pos, line).Err? ==> ReadLine(pos, line).error == ValueError
    ensures ReadLine(pos, line).Ok? ==>
      var next := ReadLine(pos, line).value;
      forall key :: Lookup(next, key) ==
        if '=' in line && Assignment(line).value.0 == key then Some(Assignment(line).value.1) else Lookup(pos, key)
  {
    if '=' in line {
      JoinSplit(line, '=');
    }
  }

  /** The loop of `get_pos` succeeds exactly when every line is well formed,
      and fails only with ValueError. */
  lemma {:induction false} ReadLinesOk(pos: Assignments, lines: seq<string>)
    ensures ReadLines(pos, lines).Ok? <==> AllWellFormed(lines)
    ensures ReadLines(pos, lines).Err? ==> ReadLines(pos, lines).error == ValueError
    decreases |lines|
  {
    if |lines| > 0 {
      ReadLineSpec(pos, lines[0]);
      var step := ReadLine(pos, lines[0]);
      if step.Ok? {
        ReadLinesOk(step.value, lines[1..]);
      }
    }
  }

  /** On success the loop maps each key to the value of the last line
      assigning it and leaves the other keys as they were. */
  lemma {:induction false} ReadLinesValues(pos: Assignments, lines: seq<string>)
    requires ReadLines(pos, lines).Ok?
    ensures forall key ::
      (Lookup(ReadLines(pos, lines).value, key) ==
         if LastValue(lines, key).Some? then LastValue(lines, key) else Lookup(pos, key))
    decreases |lines|
  {
    if |lines| > 0 {
      ReadLineSpec(pos, lines[0]);
      var next := ReadLine(pos, lines[0]).value;
      ReadLinesValues(next, lines[1..]);
    }
  }

  /** `get_pos` returns the last X and Y values when every line is well
      formed and both keys occur; a malformed line is a ValueError and a
      missing key a KeyError. */
  lemma GetPosSpec(output: string)
    ensures var lines := PosLines(output);
      && (!AllWellFormed(lines) ==> GetPos(output) == Err(ValueError))
      && (AllWellFormed(lines) && (LastValue(lines, "X").None? || LastValue(lines, "Y").None?) ==>
            GetPos(output) == Err(KeyError))
      && (AllWellFormed(lines) && LastValue(lines, "X").Some? && LastValue(lines, "Y").Some? ==>
            GetPos(output) == Ok(Point(LastValue(lines, "X").value, LastValue(lines, "Y").value)))
  {
    var lines := PosLines(output);
    ReadLinesOk(map[], lines);
    if AllWellFormed(lines) {
      ReadLinesValues(map[], lines);
      var pos := ReadLines(map[], lines).value;
      assert Lookup(pos, "X") == LastValue(lines, "X");
      assert Lookup(pos, "Y") == LastValue(lines, "Y");
    }
  }

  /** The line "KEY=n" assigns `n` to KEY. */
  lemma AssignmentOf(key: string, n: int)
    requires '=' !in key
    ensures Assignment(key + "=" + ShowInt(n)) == Some((key, n))
  {
    var line := key + "=" + ShowInt(n);
    assert SplitOn(line, '=') == [key, ShowInt(n)] by {
      NoLetters(n);
      assert line == key + ['='] + ShowInt(n);
      SplitOnFirst(key, '=', ShowInt(n));
      SplitOnSingle(ShowInt(n), '=');
    }
    assert ParseInt(ShowInt(n)) == Ok(n) by {
      ParseIntShowInt(n);
    }
    AssignmentOfPieces(line, key, ShowInt(n), n);
  }

  lemma AssignmentOfPieces(line: string, key: string, value: string, n: int)
    requires SplitOn(line, '=') == [key, value] && ParseInt(value) == Ok(n)
    ensures Assignment(line) == Some((key, n))
  {
  }

  /** Two lines with no line break inside, the first not starting and the
      second not ending with a blank, are read back as those two lines. */
  lemma TwoLines(a: string, b: string)
    requires '\n' !in a && '\n' !in b
    requires |a| > 0 && !IsSpace(a[0]) && |b| > 0 && !IsSpace(b[|b| - 1])
    ensures PosLines(a + "\n" + b) == [a, b]
  {
    var s := a + "\n" + b;
    assert s == a + ['\n'] + b;
    assert s[0] == a[0] && s[|s| - 1] == b[|b| - 1];
    StripUnpadded(s);
    SplitOnFirst(a, '\n', b);
    SplitOnSingle(b, '\n');
  }

  /** The shell output of `xdotool` for a pointer at (x, y) is read back as (x, y). */
  lemma GetPosRoundTrip(x: int, y: int)
    ensures GetPos("X=" + ShowInt(x) + "\nY=" + ShowInt(y)) == Ok(Point(x, y))
  {
    var lx := "X=" + ShowInt(x);
    var ly := "Y=" + ShowInt(y);
    assert lx == ['X', '='] + ShowInt(x) && ly == ['Y', '='] + ShowInt(y);
    KeyLine('X', x);
    KeyLine('Y', y);
    PosLinesOf(lx, ly, x, y);
    GetPosOfLines(lx + "\n" + ly, lx, ly, x, y);
    GroupLines(ShowInt(x), ShowInt(y));
  }

  lemma PosLinesOf(lx: string, ly: string, x: int, y: int)
    requires lx == "X=" + ShowInt(x) && ly == "Y=" + ShowInt(y)
    ensures PosLines(lx + "\n" + ly) == [lx, ly]
  {
    NoLetters(x);
    NoLetters(y);
    assert '\n' !in lx && '\n' !in ly;
    assert ly[|ly| - 1] == ShowInt(y)[|ShowInt(y)| - 1];
    TwoLines(lx, ly);
  }

  /** A line "K=n" with a one-letter key K assigns `n` to K. */
  lemma KeyLine(key: char, n: int)
    requires key != '='
    ensures Assignment([key, '='] + ShowInt(n)) == Some(([key], n))
  {
    assert [key, '='] + ShowInt(n) == [key] + "=" + ShowInt(n);
    AssignmentOf([key], n);
  }

  /** Output that splits into an X line and a Y line gives their values. */
  lemma GetPosOfLines(output: string, lx: string, ly: string, x: int, y: int)
    requires PosLines(output) == [lx, ly]
    requires Assignment(lx) == Some(("X", x)) && Assignment(ly) == Some(("Y", y))
    ensures GetPos(output) == Ok(Point(x, y))
  {
    TwoAssignments(lx, ly, "X", x, "Y", y);
    GetPosSpec(output);
  }

  /** Two assignments to different keys: both lines are well formed and
      each key gets its own value. */
  lemma TwoAssignments(a: string, b: string, ka: string, va: int, kb: string, vb: int)
    requires Assignment(a) == Some((ka, va)) && Assignment(b) == Some((kb, vb)) && ka != kb
    ensures AllWellFormed([a, b])
    ensures LastValue([a, b], ka) == Some(va) && LastValue([a, b], kb) == Some(vb)
  {
    TwoWellFormed(a, b);
    OnlyLine(b, kb, vb, ka);
    LaterLine(a, b, kb, vb);
    EarlierLine(a, b, ka, va);
  }

  /** A single line assigning `k` gives `k` its value and no other key any. */
  lemma OnlyLine(b: string, k: string, v: int, other: string)
    requires Assignment(b) == Some((k, v)) && other != k
    ensures LastValue([b], k) == Some(v) && LastValue([b], other) == None
  {
    assert [b][1..] == [];
    assert LastValue([b][1..], k) == None;
  }

  lemma TwoWellFormed(a: string, b: string)
    requires WellFormed(a) && WellFormed(b)
    ensures AllWellFormed([a, b])
  {
    assert [a, b][1..] == [b];
    assert [b][1..] == [];
  }

  lemma LaterLine(a: string, b: string, k: string, v: int)
    requires LastValue([b], k) == Some(v)
    ensures LastValue([a, b], k) == Some(v)
  {
    assert [a, b][1..] == [b];
  }

  lemma EarlierLine(a: string, b: string, k: string, v: int)
    requires LastValue([b], k) == None && Assignment(a) == Some((k, v))
    ensures LastValue([a, b], k) == Some(v)
  {
    assert [a, b][1..] == [b];
  }

  lemma GroupLines(a: string, b: string)
    ensures "X=" + a + "\nY=" + b == ("X=" + a) + "\n" + ("Y=" + b)
  {
  }

  // ---------------------------------------------------------------------------
  // get_virtual_bounds

  /** A token that could be a geometry: it holds both a '+' and an 'x'. */
  predicate IsGeometry(part: string) {
    '+' in part && 'x' in part
  }

  /** `parts[k]` is the first geometry token of `parts`. */
  predicate FirstGeometry(parts: seq<string>, k: int) {
    0 <= k < |parts| && IsGeometry(parts[k]) && forall j :: 0 <= j < k ==> !IsGeometry(parts[j])
  }

  /** The first token holding both a '+' and an 'x', as in "1920x1080+0+0". */
  function GeometryToken(parts: seq<string>): (r: Option<string>)
    ensures r.Some? ==> exists k :: FirstGeometry(parts, k) && parts[k] == r.value
    ensures r.None? <==> forall k :: 0 <= k < |parts| ==> !IsGeometry(parts[k])
    decreases |parts|
  {
    if |parts| == 0 then None
    else if IsGeometry(parts[0]) then
      assert FirstGeometry(parts, 0);
      Some(parts[0])
    else
      var r := GeometryToken(parts[1..]);
      assert r.Some? ==> exists k :: FirstGeometry(parts, k) && parts[k] == r.value by {
        if r.Some? {
          var k :| FirstGeometry(parts[1..], k) && parts[1..][k] == r.value;
          assert FirstGeometry(parts, k + 1);
        }
      }
      r
  }

  /** The size part of a geometry token, before its first '+', split at 'x'. */
  function SizeFields(token: string): seq<string> {
    SplitOn(SplitOn(token, '+')[0], 'x')
  }

  /** Exactly two fields, both integers: the size is well formed. */
  predicate WellFormedSize(fields: seq<string>) {
    |fields| == 2 && ParseInt(fields[0]).Ok? && ParseInt(fields[1]).Ok?
  }

  /** "WxH+X+Y" to the bounds `(0, 0, W - 1, H - 1)`: the offsets are ignored. */
  function ParseResolution(token: string): (r: Result<Bounds>)
    ensures r.Ok? <==> WellFormedSize(SizeFields(token))
    ensures r.Ok? ==> var fields := SizeFields(token);
      r.value == Bounds(0, 0, ParseInt(fields[0]).value - 1, ParseInt(fields[1]).value - 1)
    ensures r.Err? ==> r.error == ValueError
  {
    ParseSize(SplitOn(token, '+')[0])
  }

  /** The "WxH" part of the token, split at 'x'. */
  function ParseSize(res: string): (r: Result<Bounds>)
    ensures r.Ok? <==> WellFormedSize(SplitOn(res, 'x'))
    ensures r.Ok? ==> var fields := SplitOn(res, 'x');
      r.value == Bounds(0, 0, ParseInt(fields[0]).value - 1, ParseInt(fields[1]).value - 1)
    ensures r.Err? ==> r.error == ValueError
  {
    ParseDims(SplitOn(res, 'x'))
  }

  /** Exactly a width and a height, both integers. */
  function ParseDims(dims: seq<string>): (r: Result<Bounds>)
    ensures r.Ok? <==> WellFormedSize(dims)
    ensures r.Ok? ==> r.value == Bounds(0, 0, ParseInt(dims[0]).value - 1, ParseInt(dims[1]).value - 1)
    ensures r.Err? ==> r.error == ValueError
  {
    if |dims| != 2 then
      Err(ValueError)
    else
      var width :- ParseInt(dims[0]);
      var height :- ParseInt(dims[1]);
      Ok(Bounds(0, 0, width - 1, height - 1))
  }

  /** A line the search stops at: a connected output with a geometry token. */
  predicate Matches(line: string) {
    Contains(line, " connected ") && GeometryToken(Words(line)).Some?
  }

  /** A line that names an output as " connected " and carries a geometry
      token is where the search stops, whatever surrounds the word. */
  lemma ConnectedLine(name: string, rest: string)
    requires GeometryToken(Words(name + " connected " + rest)).Some?
    ensures Matches(name + " connected " + rest)
  {
    ContainsInfix(name, " connected ", rest);
  }

  /** Conversely, a line the search stops at has " connected " somewhere in it. */
  lemma MatchedLineSplits(line: string) returns (name: string, rest: string)
    requires Matches(line)
    ensures line == name + " connected " + rest
  {
    var i := ContainsWitness(line, " connected ");
    name := line[..i];
    rest := line[i + |" connected "|..];
    assert line == line[..i] + line[i..i + |" connected "|] + line[i + |" connected "|..];
  }

  /** The loop of `get_virtual_bounds` over the remaining lines. */
  function ScanLines(lines: seq<string>): Result<Bounds>
    decreases |lines|
  {
    if |lines| == 0 then
      Err(RuntimeError)
    else if Contains(lines[0], " connected ") then
      match GeometryToken(Words(lines[0]))
      case Some(token) => ParseResolution(token)
      case None => ScanLines(lines[1..])
    else
      ScanLines(lines[1..])
  }

  /** `get_virtual_bounds` on the output of `xrandr`. */
  function XrandrBounds(output: string): Result<Bounds> {
    ScanLines(SplitLines(output))
  }

  /** `xrandr` output is searched line by line: joining lines with '\n'
      and splitting them again gives back the same lines. */
  lemma XrandrOfLines(lines: seq<string>)
    requires |lines| >= 1 && |lines[|lines| - 1]| > 0
    requires forall k :: 0 <= k < |lines| ==> Avoids(lines[k], Break)
    ensures XrandrBounds(Join(lines, '\n')) == ScanLines(lines)
  {
    SplitLinesJoin(lines);
  }

  /** The search ends at the first matching line, whatever follows it: a
      malformed size there is a ValueError even if a later line is good. */
  lemma {:induction false} ScanFirstMatch(lines: seq<string>, k: nat)
    requires k < |lines| && Matches(lines[k])
    requires forall j :: 0 <= j < k ==> !Matches(lines[j])
    ensures ScanLines(lines) == ParseResolution(GeometryToken(Words(lines[k])).value)
    decreases k
  {
    if k == 0 {
      ScanHit(lines);
    } else {
      ScanSkip(lines);
      forall j | 0 <= j < k - 1
        ensures !Matches(lines[1..][j])
      {
        assert lines[1..][j] == lines[j + 1];
      }
      ScanFirstMatch(lines[1..], k - 1);
    }
  }

  /** A malformed size on the first matching line raises ValueError: the
      search does not go on to later lines. */
  lemma MalformedFirstMatch(lines: seq<string>, k: nat)
    requires k < |lines| && Matches(lines[k])
    requires forall j :: 0 <= j < k ==> !Matches(lines[j])
    requires !WellFormedSize(SizeFields(GeometryToken(Words(lines[k])).value))
    ensures ScanLines(lines) == Err(ValueError)
  {
    ScanFirstMatch(lines, k);
  }

  lemma ScanHit(lines: seq<string>)
    requires |lines| > 0 && Matches(lines[0])
    ensures ScanLines(lines) == ParseResolution(GeometryToken(Words(lines[0])).value)
  {
  }

  /** A first line that does not match is skipped. */
  lemma ScanSkip(lines: seq<string>)
    requires |lines| > 0 && !Matches(lines[0])
    ensures ScanLines(lines) == ScanLines(lines[1..])
  {
  }

  /** RuntimeError is raised exactly when no line matches. */
  lemma {:induction false} ScanNoMatch(lines: seq<string>)
    ensures ScanLines(lines) == Err(RuntimeError) <==> forall k :: 0 <= k < |lines| ==> !Matches(lines[k])
    decreases |lines|
  {
    if |lines| > 0 {
      ScanNoMatch(lines[1..]);
      if Matches(lines[0]) {
        ScanHit(lines);
      } else {
        ScanSkip(lines);
        if forall k :: 0 <= k < |lines[1..]| ==> !Matches(lines[1..][k]) {
          forall k | 0 <= k < |lines|
            ensures !Matches(lines[k])
          {
            if k > 0 {
              assert lines[k] == lines[1..][k - 1];
            }
          }
        }
      }
    }
  }

  lemma SplitDimensions(w: int, h: int)
    ensures SplitOn(ShowInt(w) + "x" + ShowInt(h), 'x') == [ShowInt(w), ShowInt(h)]
  {
    NoLetters(w);
    NoLetters(h);
    assert ShowInt(w) + "x" + ShowInt(h) == ShowInt(w) + ['x'] + ShowInt(h);
    SplitOnFirst(ShowInt(w), 'x', ShowInt(h));
    SplitOnSingle(ShowInt(h), 'x');
  }

  /** `str(n)` is digits with at most a minus sign: no 'x', '+', '=', line
      break or blank. */
  lemma NoLetters(n: int)
    ensures 'x' !in ShowInt(n) && '+' !in ShowInt(n) && '=' !in ShowInt(n) && '\n' !in ShowInt(n)
    ensures |ShowInt(n)| > 0 && !IsSpace(ShowInt(n)[|ShowInt(n)| - 1])
  {
    ShowIntChars(n);
  }

  /** A token whose part before the first '+' splits at 'x' into two
      integers gives the bounds of that size, whatever follows the '+'. */
  lemma ResolutionOf(res: string, rest: string, a: string, b: string, w: int, h: int)
    requires '+' !in res && SplitOn(res, 'x') == [a, b]
    requires ParseInt(a) == Ok(w) && ParseInt(b) == Ok(h)
    ensures ParseResolution(res + "+" + rest) == Ok(Bounds(0, 0, w - 1, h - 1))
  {
    var token := res + "+" + rest;
    assert SplitOn(token, '+')[0] == res by {
      assert token == res + ['+'] + rest;
      SplitOnFirst(res, '+', rest);
    }
    SizeOf(res, a, b, w, h);
  }

  lemma SizeOf(res: string, a: string, b: string, w: int, h: int)
    requires SplitOn(res, 'x') == [a, b]
    requires ParseInt(a) == Ok(w) && ParseInt(b) == Ok(h)
    ensures ParseSize(res) == Ok(Bounds(0, 0, w - 1, h - 1))
  {
    DimsOf(a, b, w, h);
  }

  lemma DimsOf(a: string, b: string, w: int, h: int)
    requires ParseInt(a) == Ok(w) && ParseInt(b) == Ok(h)
    ensures ParseDims([a, b]) == Ok(Bounds(0, 0, w - 1, h - 1))
  {
  }

  lemma GroupToken(a: string, b: string, c: string, d: string)
    ensures a + "x" + b + "+" + c + "+" + d == (a + "x" + b) + "+" + (c + "+" + d)
  {
  }

  /** "WxH+X+Y" gives `(0, 0, W - 1, H - 1)` for any width, height and offsets. */
  lemma ResolutionRoundTrip(w: int, h: int, x: int, y: int)
    ensures ParseResolution(ShowInt(w) + "x" + ShowInt(h) + "+" + ShowInt(x) + "+" + ShowInt(y))
      == Ok(Bounds(0, 0, w - 1, h - 1))
  {
    var res := ShowInt(w) + "x" + ShowInt(h);
    NoLetters(w);
    NoLetters(h);
    assert '+' !in res;
    SplitDimensions(w, h);
    ParseIntShowInt(w);
    ParseIntShowInt(h);
    ResolutionOf(res, ShowInt(x) + "+" + ShowInt(y), ShowInt(w), ShowInt(h), w, h);
    GroupToken(ShowInt(w), ShowInt(h), ShowInt(x), ShowInt(y));
  }
}

=== FILE: motion.dfy ===
/** `move_to` from helpers/cursor.py: the pointer is walked from its current
    position to the clamped target in `steps` interpolated frames and then set
    exactly on the target.  The model returns the sequence of positions handed
    to `set_cursor_pos`; the sleeps between frames are not modelled. */
module Motion {
  import opened Geometry
  import opened Numbers

  /** SPEED_PX_PER_SEC and FRAME_RATE. */
  const SpeedPxPerSec: real := 1000.0
  const FrameRate: int := 120

  /** `hypot(dx, dy) < 1`, compared on squares. */
  predicate Near(a: Point, b: Point) {
    var dx := b.x - a.x;
    var dy := b.y - a.y;
    dx * dx + dy * dy < 1
  }

  /** On whole pixels, being within distance 1 means being the same point. */
  lemma NearIsEqual(a: Point, b: Point)
    ensures Near(a, b) <==> a == b
  {
    var dx := b.x - a.x;
    var dy := b.y - a.y;
    if dx != 0 {
      assert dx * dx >= 1 by {
        if dx > 0 { assert dx * dx >= dx; } else { assert dx * dx >= -dx; }
      }
    }
    if dy != 0 {
      assert dy * dy >= 1 by {
        if dy > 0 { assert dy * dy >= dy; } else { assert dy * dy >= -dy; }
      }
    }
    assert dx * dx >= 0 && dy * dy >= 0;
  }

  function MaxReal(a: real, b: real): real {
    if a >= b then a else b
  }

  /** `max(1, int(frame_rate * duration))` with `duration = dist / max(1e-6, speed)`. */
  function StepCount(frameRate: int, speed: real, dist: real): (steps: int)
    ensures steps >= 1
  {
    Max(1, Trunc(frameRate as real * (dist / MaxReal(0.000001, speed))))
  }

  /** The frame count is truncated, not rounded: at the default speed and
      frame rate a 1005-pixel move takes 120 frames (120.6 truncated), and a
      5-pixel move, whose product 0.6 truncates to 0, still takes one. */
  lemma StepCountTruncates()
    ensures StepCount(FrameRate, SpeedPxPerSec, 1000.0) == 120
    ensures StepCount(FrameRate, SpeedPxPerSec, 1005.0) == 120
    ensures StepCount(FrameRate, SpeedPxPerSec, 5.0) == 1
  {
    assert 120.0 * (1005.0 / 1000.0) == 120.6;
    assert 120.0 * (5.0 / 1000.0) == 0.6;
  }

  /** One axis of frame `i` before rounding: `c + d * t` with `d = g - c`, `t = i / steps`. */
  function Position(c: int, g: int, i: int, steps: int): real
    requires steps >= 1
  {
    c as real + (g - c) as real * (i as real / steps as real)
  }

  /** One axis of frame `i`: `round(c + d * t)`. */
  function Tween(c: int, g: int, i: int, steps: int): int
    requires steps >= 1
  {
    RoundHalfEven(Position(c, g, i, steps))
  }

  /** The position set at frame `i` of `steps`. */
  function Frame(cur: Point, goal: Point, i: int, steps: int): Point
    requires steps >= 1
  {
    Point(Tween(cur.x, goal.x, i, steps), Tween(cur.y, goal.y, i, steps))
  }

  /** `p` lies in the axis-aligned box spanned by `a` and `b`. */
  predicate InBox(a: Point, b: Point, p: Point) {
    Min(a.x, b.x) <= p.x <= Max(a.x, b.x) && Min(a.y, b.y) <= p.y <= Max(a.y, b.y)
  }

  /** The clamped whole-pixel target `move_to` heads for. */
  function Goal(b: Bounds, targetX: real, targetY: real): Point {
    ClampPoint(b, Point(Trunc(targetX), Trunc(targetY)))
  }

  /** The `set_cursor_pos` calls of `move_to(targetX, targetY)` from `cur`, where
      `frames` is `int(FRAME_RATE * duration)`. */
  function MoveTrace(cur: Point, targetX: real, targetY: real, b: Bounds, frames: int): (calls: seq<Point>)
    ensures |calls| >= 1 && calls[|calls| - 1] == Goal(b, targetX, targetY)
  {
    var goal := Goal(b, targetX, targetY);
    if Near(cur, goal) then
      [goal]
    else
      var steps := Max(1, frames);
      seq(steps, k requires 0 <= k < steps => Frame(cur, goal, k + 1, steps)) + [goal]
  }

  /** The loop of `move_to`, one `set_cursor_pos` per iteration, then the final exact set. */
  method MoveTo(cur: Point, targetX: real, targetY: real, b: Bounds, frames: int) returns (calls: seq<Point>)
    ensures calls == MoveTrace(cur, targetX, targetY, b, frames)
  {
    var goal := Goal(b, targetX, targetY);
    if Near(cur, goal) {
      return [goal];
    }
    var steps := Max(1, frames);
    calls := [];
    for i := 1 to steps + 1
      invariant |calls| == i - 1
      invariant forall k :: 0 <= k < i - 1 ==> calls[k] == Frame(cur, goal, k + 1, steps)
    {
      calls := calls + [Frame(cur, goal, i, steps)];
    }
    calls := calls + [goal];
  }

  /** `i / steps` lies in [0, 1] for `0 <= i <= steps` and grows with `i`. */
  lemma RatioBounds(i: int, j: int, steps: int)
    requires steps >= 1 && 0 <= i <= j <= steps
    ensures 0.0 <= i as real / steps as real <= j as real / steps as real <= 1.0
  {
    var n := steps as real;
    assert i as real / n * n == i as real;
    assert j as real / n * n == j as real;
  }

  lemma MulNonNegative(a: real, b: real)
    requires a >= 0.0 && b >= 0.0
    ensures a * b >= 0.0
  {
  }

  /** Moving a fraction `t` of the way from `c` to `g` never overshoots, and a
      larger fraction gets no closer to the start. */
  lemma Lerp(c: real, g: real, s: real, t: real)
    requires 0.0 <= s <= t <= 1.0
    ensures c <= g ==> c <= c + (g - c) * s <= c + (g - c) * t <= g
    ensures g <= c ==> g <= c + (g - c) * t <= c + (g - c) * s <= c
  {
    var d := g - c;
    assert d * (t - s) == d * t - d * s;
    assert d * (1.0 - t) == d - d * t;
    if c <= g {
      MulNonNegative(d, s);
      MulNonNegative(d, t - s);
      MulNonNegative(d, 1.0 - t);
    } else {
      MulNonNegative(-d, s);
      MulNonNegative(-d, t - s);
      MulNonNegative(-d, 1.0 - t);
    }
  }

  /** Before rounding, frame `i` lies between the start and the goal, and
      later frames lie no closer to the start. */
  lemma PositionBetween(c: int, g: int, i: int, j: int, steps: int)
    requires steps >= 1 && 0 <= i <= j <= steps
    ensures c <= g ==> c as real <= Position(c, g, i, steps) <= Position(c, g, j, steps) <= g as real
    ensures g <= c ==> g as real <= Position(c, g, j, steps) <= Position(c, g, i, steps) <= c as real
  {
    RatioBounds(i, j, steps);
    Lerp(c as real, g as real, i as real / steps as real, j as real / steps as real);
  }

  /** An interpolated coordinate stays between its start and its goal. */
  lemma TweenBetween(c: int, g: int, i: int, steps: int)
    requires steps >= 1 && 0 <= i <= steps
    ensures Min(c, g) <= Tween(c, g, i, steps) <= Max(c, g)
  {
    PositionBetween(c, g, i, i, steps);
    if c <= g {
      RoundBetween(Position(c, g, i, steps), c, g);
    } else {
      RoundBetween(Position(c, g, i, steps), g, c);
    }
  }

  /** The last interpolated frame (`t = 1`) already sits on the goal. */
  lemma TweenEnd(c: int, g: int, steps: int)
    requires steps >= 1
    ensures Tween(c, g, steps, steps) == g
  {
    assert steps as real / steps as real == 1.0;
    RoundOfInteger(g);
  }

  /** Successive frames never move back toward the start. */
  lemma TweenMonotone(c: int, g: int, i: int, j: int, steps: int)
    requires steps >= 1 && 0 <= i <= j <= steps
    ensures c <= g ==> Tween(c, g, i, steps) <= Tween(c, g, j, steps)
    ensures g <= c ==> Tween(c, g, j, steps) <= Tween(c, g, i, steps)
  {
    PositionBetween(c, g, i, j, steps);
    if c <= g {
      RoundMonotone(Position(c, g, i, steps), Position(c, g, j, steps));
    } else {
      RoundMonotone(Position(c, g, j, steps), Position(c, g, i, steps));
    }
  }

  /** The shape of the trace: a single exact set when the goal is where the
      pointer already is, otherwise `steps + 1` calls with `steps = max(1, frames)`,
      the last two both on the goal. */
  lemma MoveTraceShape(cur: Point, targetX: real, targetY: real, b: Bounds, frames: int)
    ensures var calls := MoveTrace(cur, targetX, targetY, b, frames);
      var goal := Goal(b, targetX, targetY);
      && (cur == goal ==> calls == [goal])
      && (cur != goal ==> |calls| == Max(1, frames) + 1 && calls[|calls| - 2] == goal)
  {
    var goal := Goal(b, targetX, targetY);
    NearIsEqual(cur, goal);
    if cur != goal {
      var steps := Max(1, frames);
      TweenEnd(cur.x, goal.x, steps);
      TweenEnd(cur.y, goal.y, steps);
    }
  }

  /** Every position handed to `set_cursor_pos` lies in the box spanned by the
      starting position and the clamped target. */
  lemma MoveTraceInBox(cur: Point, targetX: real, targetY: real, b: Bounds, frames: int)
    ensures var calls := MoveTrace(cur, targetX, targetY, b, frames);
      forall k :: 0 <= k < |calls| ==> InBox(cur, Goal(b, targetX, targetY), calls[k])
  {
    var goal := Goal(b, targetX, targetY);
    var calls := MoveTrace(cur, targetX, targetY, b, frames);
    if !Near(cur, goal) {
      var steps := Max(1, frames);
      forall k | 0 <= k < |calls|
        ensures InBox(cur, goal, calls[k])
      {
        if k < steps {
          TweenBetween(cur.x, goal.x, k + 1, steps);
          TweenBetween(cur.y, goal.y, k + 1, steps);
        }
      }
    }
  }

  /** Starting inside the screen, the pointer is never sent outside it. */
  lemma MoveTraceInBounds(cur: Point, targetX: real, targetY: real, b: Bounds, frames: int)
    requires Inside(b, cur)
    ensures var calls := MoveTrace(cur, targetX, targetY, b, frames);
      forall k :: 0 <= k < |calls| ==> Inside(b, calls[k])
  {
    MoveTraceInBox(cur, targetX, targetY, b, frames);
  }

  /** Along the trace each coordinate moves steadily toward the goal: it never
      steps back toward where it started. */
  lemma MoveTraceSteady(cur: Point, targetX: real, targetY: real, b: Bounds, frames: int, k: int, l: int)
    requires var calls := MoveTrace(cur, targetX, targetY, b, frames); 0 <= k <= l < |calls|
    ensures var calls := MoveTrace(cur, targetX, targetY, b, frames);
      var goal := Goal(b, targetX, targetY);
      && (cur.x <= goal.x ==> calls[k].x <= calls[l].x)
      && (goal.x <= cur.x ==> calls[l].x <= calls[k].x)
      && (cur.y <= goal.y ==> calls[k].y <= calls[l].y)
      && (goal.y <= cur.y ==> calls[l].y <= calls[k].y)
  {
    var goal := Goal(b, targetX, targetY);
    var calls := MoveTrace(cur, targetX, targetY, b, frames);
    if !Near(cur, goal) {
      var steps := Max(1, frames);
      if l < steps {
        TweenMonotone(cur.x, goal.x, k + 1, l + 1, steps);
        TweenMonotone(cur.y, goal.y, k + 1, l + 1, steps);
      } else {
        MoveTraceInBox(cur, targetX, targetY, b, frames);
        assert InBox(cur, goal, calls[k]);
      }
    }
  }
}

=== FILE: numbers.dfy ===
/** Python's numeric conversions as the modelled code uses them: `int(text)`,
    `float(text)`, `int(x)` on a float (truncation toward zero), `round(x)`
    (round half to even) and `str(n)` on an integer.  Floats are modelled as
    exact reals plus the three special values. */
module Numbers {
  import opened Text
  import opened Results

  predicate IsDigit(c: char) {
    '0' <= c <= '9'
  }

  predicate AllDigits(s: string) {
    forall k :: 0 <= k < |s| ==> IsDigit(s[k])
  }

  function DigitValue(c: char): nat
    requires IsDigit(c)
  {
    c as int - '0' as int
  }

  function DigitChar(d: nat): (c: char)
    requires d < 10
    ensures IsDigit(c) && DigitValue(c) == d
  {
    ('0' as int + d) as char
  }

  /** The value of a string of decimal digits, most significant first. */
  function DigitsValue(s: string): nat
    requires AllDigits(s)
  {
    if |s| == 0 then 0 else DigitsValue(s[..|s| - 1]) * 10 + DigitValue(s[|s| - 1])
  }

  /** The value of the digits written after a decimal point. */
  function FractionValue(s: string): (r: real)
    requires AllDigits(s)
    ensures 0.0 <= r < 1.0
  {
    if |s| == 0 then 0.0 else (DigitValue(s[0]) as real + FractionValue(s[1..])) / 10.0
  }

  /** `str(n)` for a non-negative integer. */
  function ShowNat(n: nat): (s: string)
    ensures |s| > 0 && AllDigits(s)
  {
    if n < 10 then [DigitChar(n)] else ShowNat(n / 10) + [DigitChar(n % 10)]
  }

  function Abs(n: int): nat {
    if n < 0 then -n else n
  }

  /** `str(n)` */
  function ShowInt(n: int): string {
    if n < 0 then "-" + ShowNat(-n) else ShowNat(n)
  }

  /** `text` with a leading minus sign when `negative` holds. */
  function Signed(negative: bool, text: string): string {
    if negative then "-" + text else text
  }

  /** Separates an optional leading `+` or `-` from a numeric literal. */
  function SplitSign(s: string): (bool, string) {
    if |s| > 0 && (s[0] == '-' || s[0] == '+') then (s[0] == '-', s[1..]) else (false, s)
  }

  /** A character that can appear in no integer literal. */
  predicate Foreign(c: char) {
    !IsSpace(c) && !IsDigit(c) && c != '-' && c != '+'
  }

  /** `int(text)`: surrounding whitespace, an optional sign, one or more digits. */
  function ParseInt(text: string): Result<int> {
    var (negative, digits) := SplitSign(Strip(text));
    if |digits| > 0 && AllDigits(digits) then
      var magnitude: int := DigitsValue(digits);
      Ok(if negative then -magnitude else magnitude)
    else
      Err(ValueError)
  }

  /** A Python float: a finite value, an infinity or a NaN. */
  datatype PyFloat = Finite(value: real) | PosInf | NegInf | NaN

  /** `float(text)` for decimal notation: surrounding whitespace, an optional
      sign, then digits with an optional fractional part (at least one digit
      in all), or "inf", "infinity" or "nan" in any letter case. */
  function ParseFloat(text: string): Result<PyFloat> {
    var (negative, body) := SplitSign(Strip(text));
    match SpecialFloat(body)
    case Some(special) => Ok(if negative && special == PosInf then NegInf else special)
    case None =>
      match DecimalMagnitude(body)
      case Some(magnitude) => Ok(Finite(WithSign(negative, magnitude)))
      case None => Err(ValueError)
  }

  /** `x`, negated when `negative` holds. */
  function WithSign(negative: bool, x: real): real {
    if negative then -x else x
  }

  /** The spelled-out values `float()` accepts, without their sign. */
  function SpecialFloat(body: string): (r: Option<PyFloat>)
    ensures r.Some? ==> r.value == PosInf || r.value == NaN
  {
    var word := LowerAscii(body);
    if word == "inf" || word == "infinity" then Some(PosInf)
    else if word == "nan" then Some(NaN)
    else None
  }

  /** The value of unsigned decimal notation `digits[.digits]` or `.digits`. */
  function DecimalMagnitude(body: string): (r: Option<real>)
    ensures r.Some? ==> r.value >= 0.0
  {
    var parts := SplitOn(body, '.');
    var whole := parts[0];
    var fraction := if |parts| == 2 then parts[1] else "";
    if |parts| <= 2 && AllDigits(whole) && AllDigits(fraction) && |whole| + |fraction| > 0 then
      Some(DecimalValue(whole, fraction))
    else
      None
  }

  /** The value of `whole.fraction` in decimal notation. */
  function DecimalValue(whole: string, fraction: string): (r: real)
    requires AllDigits(whole) && AllDigits(fraction)
    ensures DigitsValue(whole) as real <= r < DigitsValue(whole) as real + 1.0
  {
    DigitsValue(whole) as real + FractionValue(fraction)
  }

  /** `int(x)` for a float `x`: truncation toward zero. */
  function Trunc(x: real): (n: int)
    ensures 0.0 <= x ==> n as real <= x < n as real + 1.0
    ensures x < 0.0 ==> n as real - 1.0 < x <= n as real
  {
    if x >= 0.0 then x.Floor else -((-x).Floor)
  }

  /** `int(f)` on a Python float: NaN raises ValueError, an infinity OverflowError. */
  function IntOfFloat(f: PyFloat): (r: Result<int>)
    ensures r.Ok? <==> f.Finite?
    ensures f == NaN ==> r == Err(ValueError)
    ensures f.Finite? ==> r == Ok(Trunc(f.value))
  {
    match f
    case Finite(x) => Ok(Trunc(x))
    case NaN => Err(ValueError)
    case _ => Err(OverflowError)
  }

  /** `int(float(text))`: parse as a float, then truncate toward zero. */
  function IntOfFloatText(text: string): Result<int> {
    var f :- ParseFloat(text);
    IntOfFloat(f)
  }

  /** `round(x)`: the nearest integer, ties going to the even neighbour. */
  function RoundHalfEven(x: real): (n: int)
    ensures n as real - 0.5 <= x <= n as real + 0.5
    ensures (x == n as real - 0.5 || x == n as real + 0.5) ==> n % 2 == 0
  {
    var f := x.Floor;
    var d := x - f as real;
    if d < 0.5 then f
    else if d > 0.5 then f + 1
    else if f % 2 == 0 then f
    else f + 1
  }

  // ---------------------------------------------------------------------------
  // Lemmas

  /** A non-whitespace character survives `strip()`. */
  lemma StripKeeps(text: string, k: nat) returns (j: nat)
    requires k < |text| && !IsSpace(text[k])
    ensures j < |Strip(text)| && Strip(text)[j] == text[k]
  {
    var i := TrimLeftKeeps(text, k);
    j := TrimRightKeeps(TrimLeft(text), i);
  }

  lemma {:induction false} TrimLeftKeeps(text: string, k: nat) returns (j: nat)
    requires k < |text| && !IsSpace(text[k])
    ensures j < |TrimLeft(text)| && TrimLeft(text)[j] == text[k]
    decreases |text|
  {
    if IsSpace(text[0]) {
      j := TrimLeftKeeps(text[1..], k - 1);
    } else {
      j := k;
    }
  }

  lemma {:induction false} TrimRightKeeps(text: string, k: nat) returns (j: nat)
    requires k < |text| && !IsSpace(text[k])
    ensures j < |TrimRight(text)| && TrimRight(text)[j] == text[k]
    decreases |text|
  {
    if IsSpace(text[|text| - 1]) {
      j := TrimRightKeeps(text[..|text| - 1], k);
    } else {
      j := k;
    }
  }

  /** `int()` rejects text holding any character outside whitespace, digits
      and signs, so "120.0" is not an integer. */
  lemma ParseIntRejectsForeign(text: string, k: nat)
    requires k < |text| && Foreign(text[k])
    ensures ParseInt(text) == Err(ValueError)
  {
    var j := StripKeeps(text, k);
    ForeignBlocksDigits(Strip(text), j);
  }

  /** A character that is neither blank, digit nor sign survives the sign split. */
  lemma ForeignBlocksDigits(t: string, j: nat)
    requires j < |t| && Foreign(t[j])
    ensures !AllDigits(SplitSign(t).1)
  {
    var digits := SplitSign(t).1;
    if |digits| < |t| {
      assert digits[j - 1] == t[j];
    } else {
      assert digits[j] == t[j];
    }
  }

  /** Reading back a printed natural number gives the number. */
  lemma {:induction false} ShowNatRoundTrip(n: nat)
    ensures DigitsValue(ShowNat(n)) == n
  {
    if n >= 10 {
      var s := ShowNat(n);
      assert s[..|s| - 1] == ShowNat(n / 10);
      ShowNatRoundTrip(n / 10);
    }
  }

  lemma DigitsNotSpecial(s: string)
    requires |s| > 0 && AllDigits(s)
    ensures !IsSpace(s[0]) && !IsSpace(s[|s| - 1])
    ensures s[0] != '-' && s[0] != '+'
    ensures '.' !in s
  {
    assert IsDigit(s[0]);
    assert IsDigit(s[|s| - 1]);
  }

  /** `str(n)` is a sign for negative numbers followed by the digits of `|n|`. */
  lemma ShowIntSigned(n: int)
    ensures ShowInt(n) == Signed(n < 0, ShowNat(Abs(n)))
  {
  }

  /** `str(n)` is made of digits and at most a leading minus, and ends
      with a digit. */
  lemma ShowIntChars(n: int)
    ensures |ShowInt(n)| > 0 && IsDigit(ShowInt(n)[|ShowInt(n)| - 1])
    ensures forall k :: 0 <= k < |ShowInt(n)| ==> IsDigit(ShowInt(n)[k]) || (k == 0 && ShowInt(n)[k] == '-')
  {
    var s := ShowInt(n);
    var digits := ShowNat(Abs(n));
    ShowIntSigned(n);
    forall k | 0 <= k < |s|
      ensures IsDigit(s[k]) || (k == 0 && s[k] == '-')
    {
      if n < 0 && k > 0 {
        assert s[k] == digits[k - 1];
      }
    }
    assert s[|s| - 1] == digits[|digits| - 1];
  }

  /** `strip` and the sign split recover the sign and the unsigned body. */
  lemma SignedSplit(negative: bool, body: string)
    requires |body| > 0 && !IsSpace(body[0]) && !IsSpace(body[|body| - 1])
    requires body[0] != '-' && body[0] != '+'
    ensures SplitSign(Strip(Signed(negative, body))) == (negative, body)
  {
    var s := Signed(negative, body);
    assert s[|s| - 1] == body[|body| - 1];
    StripUnpadded(s);
  }

  /** `int(text)` on text whose sign split is known. */
  lemma ParseIntOfParts(text: string, negative: bool, digits: string)
    requires SplitSign(Strip(text)) == (negative, digits)
    requires |digits| > 0 && AllDigits(digits)
    ensures ParseInt(text) == Ok(if negative then -(DigitsValue(digits) as int) else DigitsValue(digits))
  {
  }

  /** `int(str(n)) == n` */
  lemma ParseIntShowInt(n: int)
    ensures ParseInt(ShowInt(n)) == Ok(n)
  {
    var m: nat := if n < 0 then -n else n;
    var digits := ShowNat(m);
    ShowIntSigned(n);
    DigitsNotSpecial(digits);
    SignedSplit(n < 0, digits);
    ParseIntOfParts(ShowInt(n), n < 0, digits);
    ShowNatRoundTrip(m);
  }

  /** Digit strings are not spelled-out special values. */
  lemma DigitsNotSpecialFloat(body: string)
    requires |body| > 0 && IsDigit(body[0])
    ensures SpecialFloat(body) == None
  {
    assert IsDigit(LowerAscii(body)[0]);
  }

  /** Decimal notation without a point is its digit value. */
  lemma DecimalOfDigits(whole: string)
    requires |whole| > 0 && AllDigits(whole)
    ensures DecimalMagnitude(whole) == Some(DigitsValue(whole) as real)
  {
    DigitsNotSpecial(whole);
    SplitOnSingle(whole, '.');
    assert AllDigits("");
  }

  /** Decimal notation with a point adds the fraction to the whole part. */
  lemma DecimalOfFraction(whole: string, fraction: string)
    requires |whole| > 0 && AllDigits(whole) && AllDigits(fraction)
    ensures DecimalMagnitude(whole + "." + fraction) == Some(DecimalValue(whole, fraction))
  {
    DigitsNotSpecial(whole);
    assert '.' !in fraction;
    assert whole + "." + fraction == whole + ['.'] + fraction;
    SplitOnFirst(whole, '.', fraction);
    SplitOnSingle(fraction, '.');
  }

  /** `float` on text whose sign, special-value and decimal readings are known. */
  lemma ParseFloatFinite(text: string, negative: bool, body: string, magnitude: real)
    requires SplitSign(Strip(text)) == (negative, body)
    requires SpecialFloat(body) == None
    requires DecimalMagnitude(body) == Some(magnitude)
    ensures ParseFloat(text) == Ok(Finite(WithSign(negative, magnitude)))
  {
  }

  /** `float` of a signed string of digits. */
  lemma ParseFloatSignedDigits(negative: bool, digits: string)
    requires |digits| > 0 && AllDigits(digits)
    ensures ParseFloat(Signed(negative, digits)) == Ok(Finite(WithSign(negative, DigitsValue(digits) as real)))
  {
    DigitsNotSpecial(digits);
    SignedSplit(negative, digits);
    DigitsNotSpecialFloat(digits);
    DecimalOfDigits(digits);
    ParseFloatFinite(Signed(negative, digits), negative, digits, DigitsValue(digits) as real);
  }

  /** `float(str(n)) == n` */
  lemma ParseFloatShowInt(n: int)
    ensures ParseFloat(ShowInt(n)) == Ok(Finite(n as real))
  {
    ShowIntSigned(n);
    ParseFloatSignedDigits(n < 0, ShowNat(Abs(n)));
    ShowNatRoundTrip(Abs(n));
  }

  /** Truncation removes a fraction in [0, 1) on either side of zero. */
  lemma TruncSigned(negative: bool, m: nat, x: real)
    requires m as real <= x < m as real + 1.0
    ensures Trunc(WithSign(negative, x)) == if negative then -(m as int) else m
  {
  }

  /** `int(float(text))` once `float(text)` is known to be finite. */
  lemma IntOfFloatTextFinite(text: string, x: real)
    requires ParseFloat(text) == Ok(Finite(x))
    ensures IntOfFloatText(text) == Ok(Trunc(x))
  {
  }

  /** `whole.fraction` starts with a digit and ends with a digit or the point. */
  lemma DecimalEnds(whole: string, fraction: string)
    requires |whole| > 0 && AllDigits(whole) && AllDigits(fraction)
    ensures var body := whole + "." + fraction;
      !IsSpace(body[0]) && !IsSpace(body[|body| - 1]) && IsDigit(body[0])
  {
    var body := whole + "." + fraction;
    assert body[0] == whole[0];
    if |fraction| > 0 {
      assert body[|body| - 1] == fraction[|fraction| - 1];
    }
  }

  /** `int(float(text))` once `float(text)` is known to be a whole number. */
  lemma IntOfFloatTextWhole(text: string, n: int)
    requires ParseFloat(text) == Ok(Finite(n as real))
    ensures IntOfFloatText(text) == Ok(n)
  {
    IntOfFloatTextFinite(text, n as real);
    TruncWhole(n);
  }

  lemma TruncWhole(n: int)
    ensures Trunc(n as real) == n
  {
  }

  /** `float` of a signed `whole.fraction` literal. */
  lemma ParseFloatSignedDecimal(negative: bool, whole: string, fraction: string)
    requires |whole| > 0 && AllDigits(whole) && AllDigits(fraction)
    ensures ParseFloat(Signed(negative, whole + "." + fraction))
         == Ok(Finite(WithSign(negative, DecimalValue(whole, fraction))))
  {
    var body := whole + "." + fraction;
    DecimalEnds(whole, fraction);
    SignedSplit(negative, body);
    DigitsNotSpecialFloat(body);
    DecimalOfFraction(whole, fraction);
    ParseFloatFinite(Signed(negative, body), negative, body, DecimalValue(whole, fraction));
  }

  lemma DecimalValueShowNat(m: nat, fraction: string)
    requires AllDigits(fraction)
    ensures DecimalValue(ShowNat(m), fraction) == m as real + FractionValue(fraction)
  {
    ShowNatRoundTrip(m);
  }

  /** `float(str(n) + "." + digits)` is `n` with the fraction added away from zero. */
  lemma ParseFloatDecimal(n: int, fraction: string)
    requires AllDigits(fraction)
    ensures ParseFloat(ShowInt(n) + "." + fraction) == Ok(Finite(WithSign(n < 0, DecimalValue(ShowNat(Abs(n)), fraction))))
    ensures DecimalValue(ShowNat(Abs(n)), fraction) == Abs(n) as real + FractionValue(fraction)
  {
    var whole := ShowNat(Abs(n));
    ShowIntSigned(n);
    assert ShowInt(n) + "." + fraction == Signed(n < 0, whole + "." + fraction);
    ParseFloatSignedDecimal(n < 0, whole, fraction);
    DecimalValueShowNat(Abs(n), fraction);
  }

  /** `int(float(str(n) + "." + digits)) == n`: the fraction is truncated away
      toward zero, on either side of zero ("800.9" gives 800, "-3.9" gives -3). */
  lemma TruncDecimal(n: int, fraction: string)
    requires AllDigits(fraction)
    ensures IntOfFloatText(ShowInt(n) + "." + fraction) == Ok(n)
  {
    var whole := ShowNat(Abs(n));
    ParseFloatDecimal(n, fraction);
    IntOfFloatTextFinite(ShowInt(n) + "." + fraction, WithSign(n < 0, DecimalValue(whole, fraction)));
    ShowNatRoundTrip(Abs(n));
    TruncSigned(n < 0, Abs(n), DecimalValue(whole, fraction));
  }

  lemma RoundOfInteger(k: int)
    ensures RoundHalfEven(k as real) == k
  {
  }

  /** `round` never reverses the order of its arguments. */
  lemma RoundMonotone(x: real, y: real)
    requires x <= y
    ensures RoundHalfEven(x) <= RoundHalfEven(y)
  {
  }

  /** A value between two integers rounds to an integer between them. */
  lemma RoundBetween(x: real, lo: int, hi: int)
    requires lo as real <= x <= hi as real
    ensures lo <= RoundHalfEven(x) <= hi
  {
    RoundMonotone(lo as real, x);
    RoundMonotone(x, hi as real);
    RoundOfInteger(lo);
    RoundOfInteger(hi);
  }
}

=== FILE: results.dfy ===
/** Failure-compatible wrappers shared by the parsers.  The error tags are the
    Python exception classes the modelled code raises. */
module Results {

  /** The Python exceptions the modelled functions can raise. */
  datatype PyError = ValueError | KeyError | RuntimeError | OverflowError

  datatype Option<+T> = None | Some(value: T)

  datatype Result<+T> = Ok(value: T) | Err(error: PyError) {

    predicate IsFailure() {
      Err?
    }

    function PropagateFailure<U>(): Result<U>
      requires Err?
    {
      Err(error)
    }

    function Extract(): T
      requires Ok?
    {
      value
    }
  }
}

=== FILE: settings.dfy ===
/** `SettingsWindow.save_config` from ui/settings.py: the three entry fields
    are read as numbers, checked, and handed to the cursor (or only reported
    when no cursor is attached).  The dialog boxes are not modelled; which
    one appears is the `Outcome`. */
module Settings {
  import opened Text
  import opened Numbers
  import opened Results

  /** The values `save_config` hands to `update_config`. */
  datatype Config = Config(movePxPerSec: PyFloat, frameRate: int, scrollUnitsPerSec: PyFloat)

  /** The branch `save_config` ends in. */
  datatype Outcome =
    | InvalidNumber       // "Please enter valid numeric values."
    | NotPositive         // "Values must be greater than zero."
    | Updated(cfg: Config)   // update_config called, "Configuration updated successfully!"
    | Simulated(cfg: Config) // no cursor: the values are only reported

  /** Python's `x <= 0` on a float: false for NaN and for +inf. */
  predicate AtMostZero(x: PyFloat) {
    match x
    case Finite(v) => v <= 0.0
    case NegInf => true
    case PosInf => false
    case NaN => false
  }

  /** Python's `x > 0` on a float: false for NaN, true for +inf. */
  predicate AboveZero(x: PyFloat) {
    match x
    case Finite(v) => v > 0.0
    case NegInf => false
    case PosInf => true
    case NaN => false
  }

  /** A setting that `update_config` can take: every value strictly positive. */
  predicate Valid(cfg: Config) {
    AboveZero(cfg.movePxPerSec) && cfg.frameRate > 0 && AboveZero(cfg.scrollUnitsPerSec)
  }

  /** The outcome once the fields are read, given the test that rejects a value. */
  function Decide(cfg: Config, connected: bool, strict: bool): Outcome {
    var rejected := if strict then !AboveZero(cfg.movePxPerSec) || !AboveZero(cfg.scrollUnitsPerSec)
                    else AtMostZero(cfg.movePxPerSec) || AtMostZero(cfg.scrollUnitsPerSec);
    if rejected || cfg.frameRate <= 0 then NotPositive
    else if connected then Updated(cfg)
    else Simulated(cfg)
  }

  /** The body of `save_config` once `float`, `int` and `float` have been
      applied to the three fields.  Unreadable input is reported before any
      value is checked (even one at or below zero); readable input is refused
      when a value fails the test; the rest reaches the cursor when one is
      attached, and the simulation otherwise, carrying the values read. */
  function Save(move: Result<PyFloat>, frame: Result<int>, scroll: Result<PyFloat>, connected: bool, strict: bool): (out: Outcome)
    ensures out == InvalidNumber <==> move.Err? || frame.Err? || scroll.Err?
    ensures !strict && move.Ok? && frame.Ok? && scroll.Ok? ==>
      (out == NotPositive <==> AtMostZero(move.value) || frame.value <= 0 || AtMostZero(scroll.value))
    ensures strict && move.Ok? && frame.Ok? && scroll.Ok? ==>
      (out == NotPositive <==> !Valid(Config(move.value, frame.value, scroll.value)))
    ensures out.Updated? || out.Simulated? ==>
      && out.cfg == Config(move.value, frame.value, scroll.value)
      && (out.Updated? <==> connected)
    ensures strict && (out.Updated? || out.Simulated?) ==> Valid(out.cfg)
  {
    if move.Err? || frame.Err? || scroll.Err? then InvalidNumber
    else Decide(Config(move.value, frame.value, scroll.value), connected, strict)
  }

  /** `save_config` as written, with `connected` standing for `if self.cursor:`. */
  function SaveConfig(move: string, frame: string, scroll: string, connected: bool): Outcome {
    Save(ParseFloat(move), ParseInt(frame), ParseFloat(scroll), connected, false)
  }

  /** `save_config` with the test written as `not (x > 0)`, so that NaN is
      refused along with zero and the negatives. */
  function SaveConfigStrict(move: string, frame: string, scroll: string, connected: bool): Outcome {
    Save(ParseFloat(move), ParseInt(frame), ParseFloat(scroll), connected, true)
  }

  // ---------------------------------------------------------------------------
  // Lemmas

  /** A frame rate written with a decimal point is not an `int`, whatever the
      other fields hold. */
  lemma FrameRateNeedsInteger(move: string, whole: string, fraction: string, scroll: string, connected: bool)
    ensures SaveConfig(move, whole + "." + fraction, scroll, connected) == InvalidNumber
  {
    var text := whole + "." + fraction;
    assert text[|whole|] == '.';
    ParseIntRejectsForeign(text, |whole|);
  }

  /** Away from NaN the corrected test decides as the written one does. */
  lemma StrictAgreesWithoutNaN(move: Result<PyFloat>, frame: Result<int>, scroll: Result<PyFloat>, connected: bool)
    requires move != Ok(NaN) && scroll != Ok(NaN)
    ensures Save(move, frame, scroll, connected, true) == Save(move, frame, scroll, connected, false)
  {
  }

  /** "nan" is a float. */
  lemma NaNText()
    ensures ParseFloat("nan") == Ok(NaN)
  {
    NaNWord();
    NaNSign();
    NaNLower();
    NaNSpecial("nan");
    UnsignedSpecial("nan", "nan", NaN);
  }

  lemma NaNWord()
    ensures Strip("nan") == "nan"
  {
    StripUnpadded("nan");
  }

  lemma NaNSign()
    ensures SplitSign("nan") == (false, "nan")
  {
  }

  lemma NaNLower()
    ensures LowerAscii("nan") == "nan"
  {
  }

  lemma NaNSpecial(body: string)
    requires LowerAscii(body) == "nan"
    ensures SpecialFloat(body) == Some(NaN)
  {
    assert "nan" != "inf" by {
      assert "nan"[0] != "inf"[0];
    }
    assert "nan" != "infinity";
  }

  lemma UnsignedSpecial(text: string, body: string, v: PyFloat)
    requires SplitSign(Strip(text)) == (false, body) && SpecialFloat(body) == Some(v)
    ensures ParseFloat(text) == Ok(v)
  {
  }

  /** As written, a move speed that reads as NaN ("nan", by `NaNText`) gets
      past the check and reaches the cursor (or the simulation), although
      NaN is not greater than zero. */
  lemma NaNSpeedAccepted(frame: Result<int>, scroll: Result<PyFloat>, connected: bool)
    requires frame.Ok? && frame.value > 0 && scroll.Ok? && AboveZero(scroll.value)
    ensures var cfg := Config(NaN, frame.value, scroll.value);
      && Save(Ok(NaN), frame, scroll, connected, false) == (if connected then Updated(cfg) else Simulated(cfg))
      && !Valid(cfg)
  {
  }

  /** The corrected test refuses every input whose move speed reads as NaN. */
  lemma NaNSpeedRefused(frame: Result<int>, scroll: Result<PyFloat>, connected: bool)
    ensures var out := Save(Ok(NaN), frame, scroll, connected, true); out == InvalidNumber || out == NotPositive
  {
  }
}

=== FILE: text.dfy ===
/** The handful of Python `str` operations the parsers rely on, written over
    `seq<char>`: `strip`, `split(sep)`, `split()`, `splitlines`, `replace`,
    `in` on substrings and `startswith`. */
module Text {

  /** The characters `str.isspace()` accepts; `strip()`, `split()`, `int()` and
      `float()` treat exactly these as whitespace. */
  predicate IsSpace(c: char) {
    || c == ' '
    || '\t' <= c <= '\r'
    || '\U{001C}' <= c <= '\U{001F}'
    || c == '\U{0085}' || c == '\U{00A0}' || c == '\U{1680}'
    || '\U{2000}' <= c <= '\U{200A}'
    || c == '\U{2028}' || c == '\U{2029}' || c == '\U{202F}' || c == '\U{205F}'
    || c == '\U{3000}'
  }

  /** The line boundaries `str.splitlines()` splits on ("\r\n" counts as one). */
  predicate IsLineBreak(c: char) {
    || '\n' <= c <= '\r'
    || '\U{001C}' <= c <= '\U{001E}'
    || c == '\U{0085}' || c == '\U{2028}' || c == '\U{2029}'
  }

  /** What ends a piece of text: one given character, any whitespace, or any
      line boundary. */
  datatype Delimiter = Char(c: char) | Space | Break

  predicate Delimits(d: Delimiter, c: char) {
    match d
    case Char(x) => c == x
    case Space => IsSpace(c)
    case Break => IsLineBreak(c)
  }

  predicate Avoids(s: string, d: Delimiter) {
    forall k :: 0 <= k < |s| ==> !Delimits(d, s[k])
  }

  predicate AllSpace(s: string) {
    forall k :: 0 <= k < |s| ==> IsSpace(s[k])
  }

  predicate StartsWith(s: string, prefix: string) {
    |prefix| <= |s| && s[..|prefix|] == prefix
  }

  /** Python's `sub in s` for strings. */
  predicate Contains(s: string, sub: string)
    decreases |s|
  {
    StartsWith(s, sub) || (|s| > 0 && Contains(s[1..], sub))
  }

  /** The longest prefix of `s` none of whose characters is in `stop`. */
  function Span(s: string, stop: Delimiter): (w: string)
    ensures w <= s
    ensures Avoids(w, stop)
    ensures |w| < |s| ==> Delimits(stop, s[|w|])
  {
    if |s| == 0 || Delimits(stop, s[0]) then "" else [s[0]] + Span(s[1..], stop)
  }

  /** `s.lstrip()` */
  function TrimLeft(s: string): (r: string)
    ensures |r| <= |s| && r == s[|s| - |r|..]
    ensures AllSpace(s[..|s| - |r|])
    ensures |r| > 0 ==> !IsSpace(r[0])
  {
    if |s| == 0 || !IsSpace(s[0]) then s else TrimLeft(s[1..])
  }

  /** `s.rstrip()` */
  function TrimRight(s: string): (r: string)
    ensures |r| <= |s| && r == s[..|r|]
    ensures AllSpace(s[|r|..])
    ensures |r| > 0 ==> !IsSpace(r[|r| - 1])
  {
    if |s| == 0 || !IsSpace(s[|s| - 1]) then s else TrimRight(s[..|s| - 1])
  }

  /** `s.strip()` */
  function Strip(s: string): string {
    TrimRight(TrimLeft(s))
  }

  /** `s.replace(old, new)` for single characters. */
  function ReplaceChar(s: string, from: char, to: char): (r: string)
    ensures |r| == |s|
  {
    seq(|s|, k requires 0 <= k < |s| => if s[k] == from then to else s[k])
  }

  /** ASCII lower-casing, as Python's `float()` uses to read "inf" and "nan". */
  function LowerAscii(s: string): (r: string)
    ensures |r| == |s|
  {
    seq(|s|, k requires 0 <= k < |s| =>
      if 'A' <= s[k] <= 'Z' then (s[k] as int + 32) as char else s[k])
  }

  /** `s.split(sep)` with a one-character separator. */
  function SplitOn(s: string, sep: char): (pieces: seq<string>)
    ensures |pieces| >= 1
    ensures forall k :: 0 <= k < |pieces| ==> sep !in pieces[k]
    decreases |s|
  {
    var head := Span(s, Char(sep));
    if |head| == |s| then [s] else [head] + SplitOn(s[|head| + 1..], sep)
  }

  /** `sep.join(pieces)` with a one-character separator. */
  function Join(pieces: seq<string>, sep: char): string {
    if |pieces| == 0 then ""
    else if |pieces| == 1 then pieces[0]
    else pieces[0] + [sep] + Join(pieces[1..], sep)
  }

  predicate IsWord(w: string) {
    |w| > 0 && Avoids(w, Space)
  }

  /** `s.split()`: the maximal runs of non-whitespace characters, in order. */
  function Words(s: string): (ws: seq<string>)
    ensures forall k :: 0 <= k < |ws| ==> IsWord(ws[k])
    decreases |s|
  {
    if |s| == 0 then []
    else if IsSpace(s[0]) then Words(s[1..])
    else
      var w := Span(s, Space);
      [w] + Words(s[|w|..])
  }

  /** `s.splitlines()`: no trailing empty line, "\r\n" is a single break. */
  function SplitLines(s: string): (lines: seq<string>)
    ensures forall k :: 0 <= k < |lines| ==> Avoids(lines[k], Break)
    decreases |s|
  {
    if |s| == 0 then []
    else
      var line := Span(s, Break);
      if |line| == |s| then [line]
      else
        var width := if s[|line|] == '\r' && |line| + 1 < |s| && s[|line| + 1] == '\n' then 2 else 1;
        [line] + SplitLines(s[|line| + width..])
  }

  // ---------------------------------------------------------------------------
  // Lemmas

  /** `Contains` is the usual substring relation. */
  lemma {:induction false} ContainsAt(s: string, sub: string, i: nat)
    requires i + |sub| <= |s| && s[i..i + |sub|] == sub
    ensures Contains(s, sub)
    decreases i
  {
    if i == 0 {
      assert s[..|sub|] == sub;
    } else {
      assert s[1..][i - 1..i - 1 + |sub|] == s[i..i + |sub|];
      ContainsAt(s[1..], sub, i - 1);
    }
  }

  lemma {:induction false} ContainsWitness(s: string, sub: string) returns (i: nat)
    requires Contains(s, sub)
    ensures i + |sub| <= |s| && s[i..i + |sub|] == sub
    decreases |s|
  {
    if StartsWith(s, sub) {
      i := 0;
    } else {
      var j := ContainsWitness(s[1..], sub);
      assert s[1..][j..j + |sub|] == s[j + 1..j + 1 + |sub|];
      i := j + 1;
    }
  }

  lemma ContainsInfix(a: string, sub: string, b: string)
    ensures Contains(a + sub + b, sub)
  {
    var s := a + sub + b;
    assert s[|a|..|a| + |sub|] == sub;
    ContainsAt(s, sub, |a|);
  }

  /** `Span` stops exactly at the first stop character. */
  lemma {:induction false} SpanPrefix(w: string, rest: string, stop: Delimiter)
    requires Avoids(w, stop)
    requires |rest| == 0 || Delimits(stop, rest[0])
    ensures Span(w + rest, stop) == w
    decreases |w|
  {
    if |w| > 0 {
      assert (w + rest)[0] == w[0];
      assert (w + rest)[1..] == w[1..] + rest;
      SpanPrefix(w[1..], rest, stop);
    }
  }

  /** Splitting and joining on the same separator are inverse:
      `sep.join(s.split(sep)) == s`. */
  lemma {:induction false} JoinSplit(s: string, sep: char)
    ensures Join(SplitOn(s, sep), sep) == s
    decreases |s|
  {
    var head := Span(s, Char(sep));
    if |head| < |s| {
      var tail := s[|head| + 1..];
      SplitOnStep(s, sep);
      JoinSplit(tail, sep);
      JoinCons(head, SplitOn(tail, sep), sep);
    }
  }

  /** One step of `SplitOn` when a separator occurs: the text is the first
      piece, the separator and the rest. */
  lemma SplitOnStep(s: string, sep: char)
    requires |Span(s, Char(sep))| < |s|
    ensures var head := Span(s, Char(sep));
      var tail := s[|head| + 1..];
      && s == head + [sep] + tail
      && SplitOn(s, sep) == [head] + SplitOn(tail, sep)
  {
    var head := Span(s, Char(sep));
    assert s == head + [sep] + s[|head| + 1..] by {
      assert head == s[..|head|];
      assert s[|head|] == sep;
      assert s == s[..|head|] + [s[|head|]] + s[|head| + 1..];
    }
  }

  lemma JoinCons(head: string, rest: seq<string>, sep: char)
    requires |rest| >= 1
    ensures Join([head] + rest, sep) == head + [sep] + Join(rest, sep)
  {
    assert ([head] + rest)[0] == head;
    assert ([head] + rest)[1..] == rest;
  }

  /** Text without the separator is a single piece. */
  lemma SplitOnSingle(s: string, sep: char)
    requires sep !in s
    ensures SplitOn(s, sep) == [s]
  {
    SpanPrefix(s, "", Char(sep));
    assert s + "" == s;
  }

  /** The first piece of `a + [sep] + b` is `a` when `a` has no separator. */
  lemma SplitOnFirst(a: string, sep: char, b: string)
    requires sep !in a
    ensures SplitOn(a + [sep] + b, sep) == [a] + SplitOn(b, sep)
  {
    SpanPrefix(a, [sep] + b, Char(sep));
    assert a + ([sep] + b) == a + [sep] + b;
    assert (a + [sep] + b)[|a| + 1..] == b;
  }

  /** ... and `sep.join(pieces).split(sep) == pieces` for separator-free pieces. */
  lemma {:induction false} SplitJoin(pieces: seq<string>, sep: char)
    requires |pieces| >= 1
    requires forall k :: 0 <= k < |pieces| ==> sep !in pieces[k]
    ensures SplitOn(Join(pieces, sep), sep) == pieces
    decreases |pieces|
  {
    if |pieces| == 1 {
      SplitOnSingle(pieces[0], sep);
    } else {
      SplitOnFirst(pieces[0], sep, Join(pieces[1..], sep));
      SplitJoin(pieces[1..], sep);
      assert pieces == [pieces[0]] + pieces[1..];
    }
  }

  lemma StripUnpadded(s: string)
    requires |s| > 0 && !IsSpace(s[0]) && !IsSpace(s[|s| - 1])
    ensures Strip(s) == s
  {
  }

  /** Leading and trailing whitespace are exactly what `strip` removes. */
  lemma StripPadded(pre: string, core: string, post: string)
    requires AllSpace(pre) && AllSpace(post)
    requires |core| > 0 && !IsSpace(core[0]) && !IsSpace(core[|core| - 1])
    ensures Strip(pre + core + post) == core
  {
    var s := pre + core + post;
    assert s[|pre|] == core[0];
    var l := TrimLeft(s);
    assert |s| - |l| == |pre|;
    assert l == core + post;
    var r := TrimRight(l);
    assert l[|core| - 1] == core[|core| - 1];
    assert |r| == |core|;
  }

  lemma {:induction false} WordsSkipSpace(gap: string, s: string)
    requires AllSpace(gap)
    ensures Words(gap + s) == Words(s)
    decreases |gap|
  {
    if |gap| > 0 {
      assert (gap + s)[0] == gap[0];
      assert IsSpace(gap[0]);
      assert (gap + s)[1..] == gap[1..] + s;
      assert Words(gap + s) == Words(gap[1..] + s);
      WordsSkipSpace(gap[1..], s);
    } else {
      assert gap + s == s;
    }
  }

  lemma WordsCons(w: string, rest: string)
    requires IsWord(w)
    requires |rest| == 0 || IsSpace(rest[0])
    ensures Words(w + rest) == [w] + Words(rest)
  {
    SpanPrefix(w, rest, Space);
    assert (w + rest)[|w|..] == rest;
  }

  /** Two words with any non-empty whitespace gap split into exactly those two. */
  lemma WordsPair(a: string, gap: string, b: string)
    requires IsWord(a) && IsWord(b)
    requires |gap| > 0 && AllSpace(gap)
    ensures Words(a + gap + b) == [a, b]
  {
    WordsCons(a, gap + b);
    assert a + (gap + b) == a + gap + b;
    WordsSkipSpace(gap, b);
    WordsCons(b, "");
    assert b + "" == b;
  }

  /** `"\n".join(lines).splitlines() == lines` when no line holds a break and the
      last one is not empty. */
  lemma {:induction false} SplitLinesJoin(lines: seq<string>)
    requires |lines| >= 1 && |lines[|lines| - 1]| > 0
    requires forall k :: 0 <= k < |lines| ==> Avoids(lines[k], Break)
    ensures SplitLines(Join(lines, '\n')) == lines
    decreases |lines|
  {
    if |lines| == 1 {
      SpanPrefix(lines[0], "", Break);
      assert lines[0] + "" == lines[0];
    } else {
      var tail := Join(lines[1..], '\n');
      var s := lines[0] + ['\n'] + tail;
      SpanPrefix(lines[0], ['\n'] + tail, Break);
      assert lines[0] + (['\n'] + tail) == s;
      assert s[|lines[0]| + 1..] == tail;
      SplitLinesJoin(lines[1..]);
      assert lines == [lines[0]] + lines[1..];
    }
  }
}

=== FILE: tracking.dfy ===
/** One iteration of `run_tracking_loop` in main.py: drain the stop queue,
    steer the pointer toward the head-pose target, click on winks with a
    per-button cooldown, and react to the 'q'/Esc and 'c' keys.  The camera,
    the face mesh and the head-pose tracker are outside the model: what they
    report for an iteration arrives as a `Tick`, and the calls the loop makes
    on the cursor, the tracker and the stop queue come back as `Event`s. */
module TrackingLoop {
  import opened Geometry
  import opened Results

  /** CLICK_COOLDOWN, in seconds. */
  const ClickCooldown: real := 0.6

  /** The eye aspect ratios below which an eye counts as closed and above
      which it counts as open. */
  const ClosedBelow: real := 0.2
  const OpenAbove: real := 0.3

  /** `ord(...)` of the keys the loop reacts to. */
  const EscKey: int := 27
  const QuitKey: int := 113
  const CalibrateKey: int := 99

  datatype Button = Left | Right

  /** A call the loop makes on the outside world. */
  datatype Event =
    | StepTowards(target: Point)
    | Click(button: Button, at: real)
    | PostQuit
    | CalibrateCenter(yaw: real, pitch: real)

  /** One detected face: its left and right eye aspect ratios and the value
      of `time.time()` when it was looked at. */
  datatype Face = Face(leftEar: real, rightEar: real, now: real)

  /** What one iteration observes: the message taken from the stop queue (if
      it was not empty), the tracker's position and angles, the faces in the
      frame (none when there is no frame), and the value of `cv2.waitKey(1)`. */
  datatype Tick = Tick(queued: Option<string>, pos: Option<(int, int)>, faces: seq<Face>, key: int, angles: Option<(real, real)>)

  /** The loop's variables: the two last-click times, and whether it has left. */
  datatype LoopState = LoopState(lastLeftClick: real, lastRightClick: real, stopped: bool)

  const Initial: LoopState := LoopState(0.0, 0.0, false)

  /** The click a face asks for.  The mapping is crossed: a closed left eye
      with an open right one right-clicks, and the other way round left-clicks. */
  function Gesture(f: Face): Option<Button> {
    if f.leftEar < ClosedBelow && f.rightEar > OpenAbove then Some(Right)
    else if f.rightEar < ClosedBelow && f.leftEar > OpenAbove then Some(Left)
    else None
  }

  function LastClick(s: LoopState, b: Button): real {
    match b
    case Left => s.lastLeftClick
    case Right => s.lastRightClick
  }

  function WithClick(s: LoopState, b: Button, at: real): LoopState {
    match b
    case Left => s.(lastLeftClick := at)
    case Right => s.(lastRightClick := at)
  }

  /** The wink branch for one face: click when the button's cooldown has
      strictly passed, and remember the time. */
  function HandleFace(s: LoopState, f: Face): (LoopState, seq<Event>) {
    match Gesture(f)
    case None => (s, [])
    case Some(b) =>
      if f.now - LastClick(s, b) > ClickCooldown then (WithClick(s, b, f.now), [Click(b, f.now)])
      else (s, [])
  }

  /** The `for face_landmarks in ...` loop: faces are handled in order, each
      seeing the click times the earlier ones left. */
  function HandleFaces(s: LoopState, faces: seq<Face>): (LoopState, seq<Event>)
    decreases |faces|
  {
    if |faces| == 0 then
      (s, [])
    else
      var (s1, e1) := HandleFace(s, faces[0]);
      var (s2, e2) := HandleFaces(s1, faces[1..]);
      (s2, e1 + e2)
  }

  /** `max(min, min(max, raw + min))` on each axis: always on the screen, and
      exactly the tracker's offset from the top-left corner when that offset
      lies within the screen's width and height. */
  function Target(b: Bounds, raw: (int, int)): (r: Point)
    ensures NonEmpty(b) ==> Inside(b, r)
    ensures 0 <= raw.0 < Width(b) && 0 <= raw.1 < Height(b) ==> r == Point(raw.0 + b.minX, raw.1 + b.minY)
  {
    ClampPoint(b, Point(raw.0 + b.minX, raw.1 + b.minY))
  }

  /** `key & 0xFF`: for a non-negative mask, Python's `&` keeps the residue
      modulo 256, negative keys included (-1, "no key", becomes 255). */
  function KeyCode(key: int): (r: int)
    ensures 0 <= r < 256
  {
    key % 256
  }

  predicate IsQuitKey(key: int) {
    KeyCode(key) == EscKey || KeyCode(key) == QuitKey
  }

  /** One pass of the `while True` body. */
  function Step(b: Bounds, s: LoopState, t: Tick): (LoopState, seq<Event>) {
    if s.stopped then
      (s, [])
    else if t.queued == Some("QUIT") then
      (s.(stopped := true), [])
    else
      var moves := if t.pos.Some? then [StepTowards(Target(b, t.pos.value))] else [];
      var (s1, clicks) := HandleFaces(s, t.faces);
      if IsQuitKey(t.key) then
        (s1.(stopped := true), moves + clicks + [PostQuit])
      else if KeyCode(t.key) == CalibrateKey && t.angles.Some? then
        (s1, moves + clicks + [CalibrateCenter(t.angles.value.0, t.angles.value.1)])
      else
        (s1, moves + clicks)
  }

  /** The loop over a sequence of iterations; once stopped, later ticks do nothing. */
  function Run(b: Bounds, s: LoopState, ticks: seq<Tick>): (LoopState, seq<Event>)
    decreases |ticks|
  {
    if |ticks| == 0 then
      (s, [])
    else
      var (s1, e1) := Step(b, s, ticks[0]);
      var (s2, e2) := Run(b, s1, ticks[1..]);
      (s2, e1 + e2)
  }

  // ---------------------------------------------------------------------------
  // The click history

  /** The time of the last click of `btn` in `events`, or `init` if none. */
  function LastClickIn(events: seq<Event>, btn: Button, init: real): real
    decreases |events|
  {
    if |events| == 0 then init
    else
      var next := if events[0].Click? && events[0].button == btn then events[0].at else init;
      LastClickIn(events[1..], btn, next)
  }

  /** Each click of `btn` comes more than the cooldown after the previous one
      (the first one, after `init`). */
  predicate Spaced(events: seq<Event>, btn: Button, init: real)
    decreases |events|
  {
    if |events| == 0 then true
    else if events[0].Click? && events[0].button == btn then
      events[0].at - init > ClickCooldown && Spaced(events[1..], btn, events[0].at)
    else
      Spaced(events[1..], btn, init)
  }

  /** The click bookkeeping for one button across a stretch of events: the
      clicks are spaced, and `s1` remembers the last one (or `s0`'s time). */
  predicate Tracks(s0: LoopState, events: seq<Event>, s1: LoopState, btn: Button) {
    Spaced(events, btn, LastClick(s0, btn)) && LastClick(s1, btn) == LastClickIn(events, btn, LastClick(s0, btn))
  }

  predicate NoClicks(events: seq<Event>) {
    forall k :: 0 <= k < |events| ==> !events[k].Click?
  }

  // ---------------------------------------------------------------------------
  // Lemmas: the click history

  lemma {:induction false} LastClickConcat(a: seq<Event>, c: seq<Event>, btn: Button, init: real)
    ensures LastClickIn(a + c, btn, init) == LastClickIn(c, btn, LastClickIn(a, btn, init))
    decreases |a|
  {
    if |a| > 0 {
      assert (a + c)[1..] == a[1..] + c;
      var next := if a[0].Click? && a[0].button == btn then a[0].at else init;
      LastClickConcat(a[1..], c, btn, next);
    } else {
      assert a + c == c;
    }
  }

  lemma {:induction false} SpacedConcat(a: seq<Event>, c: seq<Event>, btn: Button, init: real)
    ensures Spaced(a + c, btn, init) <==> Spaced(a, btn, init) && Spaced(c, btn, LastClickIn(a, btn, init))
    decreases |a|
  {
    if |a| > 0 {
      assert (a + c)[1..] == a[1..] + c;
      var next := if a[0].Click? && a[0].button == btn then a[0].at else init;
      SpacedConcat(a[1..], c, btn, next);
    } else {
      assert a + c == c;
    }
  }

  /** Events without clicks neither break the spacing nor move the last click. */
  lemma {:induction false} Clickless(events: seq<Event>, btn: Button, init: real)
    requires NoClicks(events)
    ensures Spaced(events, btn, init) && LastClickIn(events, btn, init) == init
    decreases |events|
  {
    if |events| > 0 {
      Clickless(events[1..], btn, init);
    }
  }

  /** Bookkeeping composes: two tracked stretches make one. */
  lemma TracksConcat(s0: LoopState, a: seq<Event>, s1: LoopState, c: seq<Event>, s2: LoopState, btn: Button)
    requires Tracks(s0, a, s1, btn) && Tracks(s1, c, s2, btn)
    ensures Tracks(s0, a + c, s2, btn)
  {
    SpacedConcat(a, c, btn, LastClick(s0, btn));
    LastClickConcat(a, c, btn, LastClick(s0, btn));
  }

  /** Appending click-free events keeps the bookkeeping. */
  lemma TracksClickless(s0: LoopState, a: seq<Event>, s1: LoopState, c: seq<Event>, btn: Button)
    requires Tracks(s0, a, s1, btn) && NoClicks(c)
    ensures Tracks(s0, a + c, s1, btn)
  {
    Clickless(c, btn, LastClick(s1, btn));
    TracksConcat(s0, a, s1, c, s1, btn);
  }

  // ---------------------------------------------------------------------------
  // Lemmas: winks

  /** The two winks exclude each other, and a face with both eyes open (or
      both closed) asks for nothing. */
  lemma GestureCases(f: Face)
    ensures Gesture(f) == Some(Right) <==> f.leftEar < 0.2 && f.rightEar > 0.3
    ensures Gesture(f) == Some(Left) <==> f.rightEar < 0.2 && f.leftEar > 0.3
    ensures (f.leftEar >= 0.2 && f.rightEar >= 0.2) || (f.leftEar <= 0.3 && f.rightEar <= 0.3) ==> Gesture(f) == None
  {
  }

  /** One face clicks `b` exactly when it winks for `b` and `b`'s cooldown has
      strictly passed; the other button's time and the stop flag are untouched. */
  lemma HandleFaceSpec(s: LoopState, f: Face, btn: Button)
    ensures var (s1, events) := HandleFace(s, f);
      && (events == [Click(btn, f.now)] <==> Gesture(f) == Some(btn) && f.now - LastClick(s, btn) > 0.6)
      && |events| <= 1
      && s1.stopped == s.stopped
      && Tracks(s, events, s1, btn)
  {
    var (s1, events) := HandleFace(s, f);
    if events == [] {
      Clickless(events, btn, LastClick(s, btn));
    } else {
      assert events[1..] == [];
    }
  }

  /** A wink inside the cooldown is dropped and changes nothing. */
  lemma CooldownDrops(s: LoopState, f: Face, btn: Button)
    requires Gesture(f) == Some(btn) && f.now - LastClick(s, btn) <= 0.6
    ensures HandleFace(s, f) == (s, [])
  {
  }

  /** Each button has its own cooldown: a click of one never delays the other. */
  lemma CooldownsIndependent(s: LoopState, f: Face, g: Face)
    requires Gesture(f) == Some(Right) && Gesture(g) == Some(Left)
    ensures LastClick(HandleFace(s, f).0, Left) == LastClick(s, Left)
    ensures HandleFace(HandleFace(s, f).0, g).1 == HandleFace(s, g).1
  {
  }

  /** The mirror case: a left click never blocks an immediate right click. */
  lemma CooldownsIndependentMirror(s: LoopState, f: Face, g: Face)
    requires Gesture(f) == Some(Left) && Gesture(g) == Some(Right)
    ensures LastClick(HandleFace(s, f).0, Right) == LastClick(s, Right)
    ensures HandleFace(HandleFace(s, f).0, g).1 == HandleFace(s, g).1
  {
  }

  lemma {:induction false} HandleFacesSpec(s: LoopState, faces: seq<Face>, btn: Button)
    ensures var (s1, events) := HandleFaces(s, faces);
      && s1.stopped == s.stopped
      && Tracks(s, events, s1, btn)
      && (forall k :: 0 <= k < |events| ==> events[k].Click?)
    decreases |faces|
  {
    var (s1, events) := HandleFaces(s, faces);
    if |faces| == 0 {
      Clickless(events, btn, LastClick(s, btn));
    } else {
      var (sa, ea) := HandleFace(s, faces[0]);
      var (sb, eb) := HandleFaces(sa, faces[1..]);
      HandleFaceSpec(s, faces[0], btn);
      HandleFacesSpec(sa, faces[1..], btn);
      TracksConcat(s, ea, sa, eb, sb, btn);
    }
  }

  // ---------------------------------------------------------------------------
  // Lemmas: one iteration

  /** The clicks of an iteration are spaced by the cooldown and the state
      remembers the last one, for each button. */
  lemma StepTracks(b: Bounds, s: LoopState, t: Tick, btn: Button)
    ensures var (s1, events) := Step(b, s, t); Tracks(s, events, s1, btn)
  {
    var (s1, events) := Step(b, s, t);
    if s.stopped || t.queued == Some("QUIT") {
      Clickless(events, btn, LastClick(s, btn));
    } else {
      var moves := if t.pos.Some? then [StepTowards(Target(b, t.pos.value))] else [];
      var (sf, clicks) := HandleFaces(s, t.faces);
      Clickless(moves, btn, LastClick(s, btn));
      HandleFacesSpec(s, t.faces, btn);
      TracksConcat(s, moves, s, clicks, sf, btn);
      if IsQuitKey(t.key) {
        TracksClickless(s, moves + clicks, sf, [PostQuit], btn);
      } else if KeyCode(t.key) == CalibrateKey && t.angles.Some? {
        TracksClickless(s, moves + clicks, sf, [CalibrateCenter(t.angles.value.0, t.angles.value.1)], btn);
      }
    }
  }

  /** How an iteration ends.  A stopped loop does nothing; a "QUIT" message
      from the queue stops it before anything else happens; otherwise it stops
      exactly on Esc or 'q' (after posting "QUIT" as its last action), and
      asks the tracker to recalibrate exactly on 'c' with angles available. */
  lemma StepControl(b: Bounds, s: LoopState, t: Tick)
    ensures s.stopped ==> Step(b, s, t) == (s, [])
    ensures !s.stopped && t.queued == Some("QUIT") ==> Step(b, s, t) == (s.(stopped := true), [])
    ensures !s.stopped && t.queued != Some("QUIT") ==>
      var (s1, events) := Step(b, s, t);
      && (s1.stopped <==> IsQuitKey(t.key))
      && (PostQuit in events <==> IsQuitKey(t.key))
      && (IsQuitKey(t.key) ==> events[|events| - 1] == PostQuit)
      && (t.angles.Some? && KeyCode(t.key) == CalibrateKey <==>
            exists k :: 0 <= k < |events| && events[k].CalibrateCenter?)
      && (t.angles.Some? && KeyCode(t.key) == CalibrateKey ==>
            events[|events| - 1] == CalibrateCenter(t.angles.value.0, t.angles.value.1))
  {
    if !s.stopped && t.queued != Some("QUIT") {
      var moves := if t.pos.Some? then [StepTowards(Target(b, t.pos.value))] else [];
      var (sf, clicks) := HandleFaces(s, t.faces);
      HandleFacesSpec(s, t.faces, Left);
      var pre := moves + clicks;
      assert Routine(pre);
      var (s1, events) := Step(b, s, t);
      if IsQuitKey(t.key) {
        assert s1 == sf.(stopped := true) && events == pre + [PostQuit];
        RoutineThen(pre, PostQuit);
      } else if KeyCode(t.key) == CalibrateKey && t.angles.Some? {
        var c := CalibrateCenter(t.angles.value.0, t.angles.value.1);
        assert s1 == sf && events == pre + [c];
        RoutineThen(pre, c);
      } else {
        assert s1 == sf && events == pre;
      }
    }
  }

  /** Only steering and clicks: the actions every iteration may take. */
  predicate Routine(events: seq<Event>) {
    forall k :: 0 <= k < |events| ==> events[k].StepTowards? || events[k].Click?
  }

  lemma RoutineThen(pre: seq<Event>, e: Event)
    requires Routine(pre) && !e.StepTowards? && !e.Click?
    ensures var events := pre + [e];
      && events[|events| - 1] == e
      && (forall k :: 0 <= k < |events| && events[k] == e ==> k == |pre|)
      && (PostQuit in events <==> e == PostQuit)
      && ((exists k :: 0 <= k < |events| && events[k].CalibrateCenter?) <==> e.CalibrateCenter?)
  {
    var events := pre + [e];
    assert events[|pre|] == e;
  }

  /** Every target the pointer is steered toward is on the screen, and the
      steering, when there is a position, is the iteration's first action. */
  lemma StepTargets(b: Bounds, s: LoopState, t: Tick)
    requires NonEmpty(b)
    ensures var events := Step(b, s, t).1;
      && (forall k :: 0 <= k < |events| && events[k].StepTowards? ==> Inside(b, events[k].target))
      && (!s.stopped && t.queued != Some("QUIT") && t.pos.Some? ==> events[0] == StepTowards(Target(b, t.pos.value)))
  {
    var events := Step(b, s, t).1;
    if !s.stopped && t.queued != Some("QUIT") {
      var moves := if t.pos.Some? then [StepTowards(Target(b, t.pos.value))] else [];
      var (sf, clicks) := HandleFaces(s, t.faces);
      HandleFacesSpec(s, t.faces, Left);
      assert forall k :: 0 <= k < |clicks| ==> !clicks[k].StepTowards?;
    }
  }

  /** With no key pressed `waitKey` returns -1, which is neither quit nor calibrate. */
  lemma NoKeyIsIgnored()
    ensures KeyCode(-1) == 255 && !IsQuitKey(-1) && KeyCode(-1) != CalibrateKey
  {
  }

  /** The mask keeps only the low byte: 'q' is recognised whatever the higher bits say. */
  lemma HighBitsIgnored(key: int, high: int)
    ensures IsQuitKey(key + 256 * high) <==> IsQuitKey(key)
  {
    assert (key + 256 * high) % 256 == key % 256;
  }

  // ---------------------------------------------------------------------------
  // Lemmas: the whole loop

  /** Running two stretches of ticks one after the other is running them together. */
  lemma {:induction false} RunSplit(b: Bounds, s: LoopState, ts: seq<Tick>, us: seq<Tick>)
    ensures var (s1, e1) := Run(b, s, ts);
      var (s2, e2) := Run(b, s1, us);
      Run(b, s, ts + us) == (s2, e1 + e2)
    decreases |ts|
  {
    if |ts| == 0 {
      assert ts + us == us;
      var (s2, e2) := Run(b, s, us);
      assert [] + e2 == e2;
    } else {
      assert (ts + us)[0] == ts[0];
      assert (ts + us)[1..] == ts[1..] + us;
      var (sa, ea) := Step(b, s, ts[0]);
      RunSplit(b, sa, ts[1..], us);
      var (sb, eb) := Run(b, sa, ts[1..]);
      var (sc, ec) := Run(b, sb, us);
      assert ea + (eb + ec) == (ea + eb) + ec;
    }
  }

  /** Once the loop has left, no later tick has any effect. */
  lemma {:induction false} RunStopped(b: Bounds, s: LoopState, ticks: seq<Tick>)
    requires s.stopped
    ensures Run(b, s, ticks) == (s, [])
    decreases |ticks|
  {
    if |ticks| > 0 {
      assert Step(b, s, ticks[0]) == (s, []);
      RunStopped(b, s, ticks[1..]);
      var none: seq<Event> := [];
      assert none + none == none;
    }
  }

  /** Over any run, for each button, clicks are more than CLICK_COOLDOWN apart
      (the first one more than that after the starting time) and the state
      remembers the last click. */
  lemma {:induction false} RunTracks(b: Bounds, s: LoopState, ticks: seq<Tick>, btn: Button)
    ensures var (s1, events) := Run(b, s, ticks); Tracks(s, events, s1, btn)
    decreases |ticks|
  {
    var (s1, events) := Run(b, s, ticks);
    if |ticks| == 0 {
      Clickless(events, btn, LastClick(s, btn));
    } else {
      var (sa, ea) := Step(b, s, ticks[0]);
      var (sb, eb) := Run(b, sa, ticks[1..]);
      StepTracks(b, s, ticks[0], btn);
      RunTracks(b, sa, ticks[1..], btn);
      TracksConcat(s, ea, sa, eb, sb, btn);
    }
  }

  /** From the loop's start, two clicks of the same button are always more
      than 0.6 seconds apart, and the first one comes after time 0.6. */
  lemma ClicksSpaced(b: Bounds, ticks: seq<Tick>, btn: Button)
    ensures Spaced(Run(b, Initial, ticks).1, btn, 0.0)
  {
    RunTracks(b, Initial, ticks, btn);
  }

  /** `run_tracking_loop` as a loop over the iterations it gets to see, leaving
      at the first iteration that stops it. */
  method RunLoop(b: Bounds, ticks: seq<Tick>) returns (state: LoopState, events: seq<Event>, used: nat)
    ensures (state, events) == Run(b, Initial, ticks)
    ensures used <= |ticks| && (used < |ticks| ==> state.stopped)
    ensures Spaced(events, Left, 0.0) && Spaced(events, Right, 0.0)
  {
    state, events, used := Initial, [], 0;
    assert ticks[..0] == [];
    while used < |ticks| && !state.stopped
      invariant used <= |ticks|
      invariant (state, events) == Run(b, Initial, ticks[..used])
    {
      var (s1, e1) := Step(b, state, ticks[used]);
      RunSplit(b, Initial, ticks[..used], [ticks[used]]);
      assert ticks[..used + 1] == ticks[..used] + [ticks[used]];
      assert Run(b, state, [ticks[used]]) == (s1, e1 + []) by {
        assert [ticks[used]][0] == ticks[used];
        assert [ticks[used]][1..] == [];
      }
      assert e1 + [] == e1;
      state, events, used := s1, events + e1, used + 1;
    }
    RunSplit(b, Initial, ticks[..used], ticks[used..]);
    assert ticks[..used] + ticks[used..] == ticks;
    if used < |ticks| {
      RunStopped(b, state, ticks[used..]);
    } else {
      assert ticks[used..] == [];
    }
    assert events + [] == events;
    ClicksSpaced(b, ticks, Left);
    ClicksSpaced(b, ticks, Right);
  }
}
